=== FILE: README.md ===
# ofblockmeshdicthelper in Dafny

A model of the `ofblockmeshdicthelper` package (`ofblockmeshdicthelper/__init__.py`). The package builds an
OpenFOAM `blockMeshDict` in memory: named vertices, hexahedral blocks, block faces and boundary patches. It then
numbers the vertices the blocks use and writes the dictionary.

The model covers the parts of the package that have logic:

- **Vertex dictionary with aliases** (`add_vertex`, `del_vertex`, `reduce_vertex`).
  - The dictionary is an arena (module `Registry`): a sequence of vertex records and a map from each name to a slot.
  - Merging names points them at one slot and unions that slot's alias set. Every name sharing the slot sees the change, as every Python key sharing the `Vertex` object does.
- **Numbering** (`assign_vertexid`).
  - Module `Numbering` holds the specification functions: the referenced names, the collecting pass `Gather`, and the `IndexedBy` relation.
  - Module `Sorting` holds the sort, `SortSlots`, an insertion sort by the corrected (z, y, x) key.
  - The class method `BlockMesh.BlockMeshDict.AssignVertexIds` runs the source's loops and is proved against those functions.
- **Faces of a block** (`HexBlock.face`).
  - Module `Topology` holds the keyword table, the corner table and the default face names.
  - It also proves that each table row lists the four corners of its side and goes once around the face, with the normal pointing out of the block.
- **Units** (`set_metric`, module `Units`) and **output** (module `Render`, plus the section functions of the class).
  - The output is modelled as lists of `Option<nat>` vertex indices, in the order the text would print them. `None` is an index that was never assigned; the source prints `None` there.
- **State.** `BlockMeshDict` and `Boundary` are classes whose methods update their fields in place.
  - The Python dicts of blocks and boundaries are insertion-ordered (Python 3.7 and later). Each is modelled as a map plus a sequence of keys in first-insertion order.

Where the package's documentation and its code disagree, the model follows the code. Apart from what "## Left out" lists, the one place the model does not follow the code is the sort key of line 29, which is not an order (see Findings and `Sorting.SortSlots` under Left out):

- **Deduplication by primary name.** `assign_vertexid` skips a vertex when a vertex with the same primary `name` was already collected (line 223). It does not compare object identity.
  - After `add_vertex("a")`, `add_vertex("c")`, `reduce_vertex("a", "c")` and `add_vertex("a")`, a block naming both "a" and "c" gets only the new vertex of "a". `Numbering.NameDeduplicationSkipsVertex` proves this.
  - Completeness of the pass as written is proved under `DistinctPrimaryNames`.
  - `Numbering.GatherBySlot` deduplicates by vertex instead, as evidently intended; it is complete with no condition on names (see Findings). The rest of the model numbers vertices as written.
- **Partial failures are kept.**
  - `reduce_vertex` stops at the first unknown name with a `KeyError`. The merges already done are kept: the state is that of merging the names before it (`Registry.MergeAllStopsAtFirstMissing`), and each of them is on `name1`'s vertex (`Registry.MergeAllPrefixOnSlot`). Repeating the call changes nothing, whether it failed or not (`Registry.ReduceIdempotent`).
  - `assign_vertexid` stops at the first unknown block vertex. `valid_vertices` is then the unsorted list collected so far, and no index changes.
- **Stale indices.** The numbering pass never clears the `index` of a vertex no block uses any more. A vertex numbered by an earlier pass keeps its old index (`IndexedBy` leaves every other slot as it was).
- **Unassigned indices print.** Formatting before numbering does not fail: block and face lines print the index `None`. Only the vertices section fails, because `valid_vertices` does not exist yet. `VerticesSection` returns `None` for that case.
- **Equal keys keep their order.** With the corrected key, the sort does not make the order strictly increasing: vertices at the same position keep their collection order. This holds for the corrected key only. With the comparison as written at line 29, two vertices at the same point are each less than the other, and the order Python's `sorted` then returns depends on its sort algorithm (see Findings).
- **The east face follows the table.** The docstring of `face` lists the east face as (1 2 5 6); the table says (1, 2, 6, 5). The model uses the table. `Topology.DocumentedEastOrderIsNotAQuad` shows that the documented order is not a cycle around the face.
- **Default face names collide.** As written, the default name of side 1 (east) has suffix `-n`, the same as side 3 (north), so the east and north faces of a block get the same name (line 102). `Topology.HexFace` gives these names as written. The corrected name with suffix `-e` is defined beside it, and all six corrected names are proved to differ (see Findings).
- **Negative side numbers wrap.** A side number from -6 to -1 selects a face, as Python list indexing does at line 111. A keyword outside the table, a number outside -6..5 and a block with too few vertex names are errors.
- **The `index` argument is ignored.** `Vertex.__init__` takes an `index` argument and does not use it (line 18). `NewVertex` has no such parameter.

## Model

| member | source | states |
|---|---|---|
| Vertices.KeyLessIsStrictOrder | ofblockmeshdicthelper/__init__.py:28-29 | the intended sort key (z, y, x) is irreflexive, asymmetric and transitive, and two vertices are unordered exactly when their coordinates are equal |
| Vertices.NewVertex | ofblockmeshdicthelper/__init__.py:9-18 | a new vertex has the given coordinates and name, the alias set {name} and no index |
| Vertices.KeyLess | ofblockmeshdicthelper/__init__.py:28-29 | the intended less-than on (z, y, x): it never puts a vertex before one at a lower z, nor before one at the same point |
| Vertices.LessAsWritten | ofblockmeshdicthelper/__init__.py:28-29 | `__lt__` as written is the intended order against the right vertex with its x replaced by its z, and agrees with the intended order, for every left vertex, when the right vertex has x equal to z |
| Vertices.LessAsWrittenDisagrees | ofblockmeshdicthelper/__init__.py:28-29 | when the right vertex has x different from z, some left vertex (on its z and y line, x halfway between its x and z) is ordered differently by `__lt__` as written than by the intended order |
| Vertices.EqualAsWritten | ofblockmeshdicthelper/__init__.py:31-32 | `__eq__` as written holds when neither vertex is before the other against the right key (z, y, z), and is equality of positions when the right vertex has x equal to z |
| Vertices.AsWrittenComparisonIsNotAnOrder | ofblockmeshdicthelper/__init__.py:28-32 | the comparison as written makes the vertex (0,0,1) less than itself and not equal to itself; it makes (0,0,1) and (0.5,0,1) each less than the other, where the intended key orders them one way only; and it makes two vertices at (0,0,1) each less than the other, where the intended key orders neither first |
| Sorting.InsertSlot | ofblockmeshdicthelper/__init__.py:227 | inserting a slot yields the old multiset plus that slot, with the same members plus the new one |
| Sorting.InsertSlotSorted | ofblockmeshdicthelper/__init__.py:227 | inserting into a sequence sorted by the (z, y, x) key keeps it sorted |
| Sorting.InsertSlotDistinct | ofblockmeshdicthelper/__init__.py:227 | inserting a new slot into a sequence without repeats creates none |
| Sorting.SortSlots | ofblockmeshdicthelper/__init__.py:227 | `sorted(valid_vertices)`: the result is sorted by the (z, y, x) key, is a permutation of the input (same multiset, same members), and has no repeats when the input has none |
| Registry.Add | ofblockmeshdicthelper/__init__.py:173-180 | `add_vertex` maps `name` to a new vertex with the given coordinates, alias set {name} and no index; an existing key is overwritten; every other key keeps its slot, so names that shared a vertex still share it; the alias invariant is preserved |
| Registry.Remove | ofblockmeshdicthelper/__init__.py:182-184 | `del_vertex` succeeds exactly when the key exists and then removes exactly that key; the arena and all other keys are unchanged, so aliases of the same vertex still resolve |
| Registry.MergeStep | ofblockmeshdicthelper/__init__.py:195-198 | one merge keeps the key set and the arena size, and keeps the alias invariant |
| Registry.MergeAll | ofblockmeshdicthelper/__init__.py:194-198 | the merge loop fails exactly when some name is unknown, at a name that is unknown; the key set and arena size are unchanged and the alias invariant is kept |
| Registry.MergeAllFrom | ofblockmeshdicthelper/__init__.py:194-198 | one iteration of the merge loop at position `i`: a step for a known name, a stop at an unknown one |
| Registry.Reduce | ofblockmeshdicthelper/__init__.py:186-198 | `reduce_vertex` fails exactly when `name1` or one of `names` is unknown; keys and arena size are unchanged and the alias invariant is kept |
| Registry.MergeAllRepoints | ofblockmeshdicthelper/__init__.py:194-198 | after a successful merge every merged name maps to the target slot and every other name keeps its slot |
| Registry.AliasesAfterStep | ofblockmeshdicthelper/__init__.py:196 | one merge step does not change what the later names' alias sets add to the target |
| Registry.AliasesAfterFirst | ofblockmeshdicthelper/__init__.py:196 | the first merge step's aliases together with those of the remaining names equal the aliases of all names |
| Registry.MergeAllUnionsAliases | ofblockmeshdicthelper/__init__.py:194-198 | a successful merge changes only the target slot, whose alias set becomes its old set united with the old alias sets of all merged names |
| Registry.ReduceMerges | ofblockmeshdicthelper/__init__.py:186-198 | after a successful `reduce_vertex` every name in `names` maps to `name1`'s vertex, no other key moves, and that vertex's aliases grow by exactly the merged vertices' aliases |
| Registry.MergeAllSettled | ofblockmeshdicthelper/__init__.py:194-198 | merging names that already share the target slot changes nothing |
| Registry.MergeAllKeepsOnSlot | ofblockmeshdicthelper/__init__.py:194-198 | a name already on the target vertex is still on it after the merge loop |
| Registry.MergeAllFirst | ofblockmeshdicthelper/__init__.py:194-198 | the merge loop on a registered first name is that name's step followed by the loop over the rest |
| Registry.MergeStepSettled | ofblockmeshdicthelper/__init__.py:195-198 | merging a name already on the target vertex changes nothing: its aliases are already there and it already points there |
| Registry.MergeAllStopsAtFirstMissing | ofblockmeshdicthelper/__init__.py:194-198 | when the loop meets an unregistered name at position i, with all earlier names registered, it ends in the state the loop over the first i names reaches and reports that name |
| Registry.MergeAllPrefixOnSlot | ofblockmeshdicthelper/__init__.py:194-198 | every name up to the first unregistered one is on the target vertex after the loop, so the merges done before a `KeyError` are kept |
| Registry.MergeAllRepeat | ofblockmeshdicthelper/__init__.py:194-198 | running the merge loop a second time with the same names changes nothing, whether the first run completed or stopped at a missing name |
| Registry.ReduceIdempotent | ofblockmeshdicthelper/__init__.py:186-198 | repeating any `reduce_vertex` call, one that succeeded or one that failed part-way with a `KeyError`, changes nothing and reports the same missing name |
| Registry.Resolve | ofblockmeshdicthelper/__init__.py:47-68 | the index list of a face (line 47) or a block (line 68) succeeds exactly when every name is registered; it then has one entry per name, in order, each the index of that name's vertex; otherwise it fails with a name that is not registered |
| Topology.SideCorners | ofblockmeshdicthelper/__init__.py:93-99 | each side lists four corner positions, each below 8 |
| Topology.SideNumber | ofblockmeshdicthelper/__init__.py:86-111 | a keyword selects a side exactly when it is in the table; a number from -6 to 5 selects the side it names modulo 6, as Python list indexing does at line 111; the side is below 6 |
| Topology.HexFace | ofblockmeshdicthelper/__init__.py:74-114 | `face` succeeds exactly when the side is valid and the block has the four corners; the face's names are the block's names at the table positions in table order; its name is the given one or the side's default name as written, where east and north share a name (see Findings) |
| Topology.SideKeywordsInTable | ofblockmeshdicthelper/__init__.py:86-92 | the three keywords of each side are in the keyword table and select that side |
| Topology.TableKeywordsInGroups | ofblockmeshdicthelper/__init__.py:86-92 | every keyword in the table is one of the three keywords of the side it selects |
| Topology.KeywordsAgree | ofblockmeshdicthelper/__init__.py:86-111 | the three keywords of side k and the number k produce the same face |
| Topology.UnknownSidesFail | ofblockmeshdicthelper/__init__.py:108-111 | a keyword outside the six groups or a number outside -6..5 produces no face |
| Topology.DefaultNameAsWritten | ofblockmeshdicthelper/__init__.py:100-106 | the default name as written is the corrected name of the same side, except that east gets the name of north |
| Topology.DefaultName | ofblockmeshdicthelper/__init__.py:100-113 | the corrected default name is "f-", the block name, "-" and the side's compass letter |
| Topology.EastAndNorthDefaultNamesCollide | ofblockmeshdicthelper/__init__.py:100-113 | as written, the default names of the east and north faces of every block are equal and differ from the corrected east name; `face` on a block with eight corners gives the east and north faces one name |
| Topology.DefaultNamesDistinct | ofblockmeshdicthelper/__init__.py:100-113 | with the corrected suffixes, the six sides of a block get six different default names |
| Topology.CornerOnPlane | ofblockmeshdicthelper/__init__.py:93-99 | a corner is listed for a side exactly when it lies on that side's plane of the unit hexahedron |
| Topology.SideCornersOnPlane | ofblockmeshdicthelper/__init__.py:93-99 | each side lists exactly the four corners on its plane |
| Topology.SideCornersFormCycle | ofblockmeshdicthelper/__init__.py:93-99 | consecutive corners of each side, and the last and first, share an edge |
| Topology.SideCornersFaceOutward | ofblockmeshdicthelper/__init__.py:93-99 | the right-hand-rule normal of each side's corner order is the side's outward normal |
| Topology.DocumentedEastOrderIsNotAQuad | ofblockmeshdicthelper/__init__.py:78 | in the documented east order (1 2 5 6), corners 2 and 5 share no edge, while in the table order 6 and 5 do |
| Topology.Boundary.constructor | ofblockmeshdicthelper/__init__.py:118-126 | a boundary holds its type, its name and the given faces |
| Topology.Boundary.AddFace | ofblockmeshdicthelper/__init__.py:128-132 | `add_face` appends the face after the existing ones |
| Render.RenderFace | ofblockmeshdicthelper/__init__.py:43-49 | a face's output succeeds exactly when all its names are registered; it keeps the face name and lists its vertices' indices in `vnames` order |
| Render.RenderBlock | ofblockmeshdicthelper/__init__.py:64-72 | a block's output succeeds exactly when all its names are registered; it keeps name and cell counts and lists its vertices' indices in `vnames` order |
| Render.RenderFaces | ofblockmeshdicthelper/__init__.py:145-147 | a patch's face lines: one per face, in insertion order, each that face's output; fails exactly when some face fails |
| Render.RenderBlocks | ofblockmeshdicthelper/__init__.py:259-260 | the blocks section: one line per block in the given order, each that block's output; fails exactly when some block fails |
| Render.RenderPatches | ofblockmeshdicthelper/__init__.py:272-276 | the boundary section: one entry per patch in the given order with its type, name and face lines |
| Render.AddedFaceRendersLast | ofblockmeshdicthelper/__init__.py:128-132 | after `add_face`, the patch's output is the old output followed by the new face's line |
| Numbering.PrimaryNamesAppend | ofblockmeshdicthelper/__init__.py:223-225 | appending a vertex adds exactly its primary name to the set of collected names |
| Numbering.Gather | ofblockmeshdicthelper/__init__.py:217-225 | the collecting loops yield slots of the arena |
| Numbering.GatherOutcome | ofblockmeshdicthelper/__init__.py:220-222 | collecting stops exactly when some referenced name is unregistered, and then at such a name |
| Numbering.GatheredNamesDistinct | ofblockmeshdicthelper/__init__.py:223-225 | the collected vertices have pairwise distinct primary names |
| Numbering.GatherCovers | ofblockmeshdicthelper/__init__.py:220-225 | after a complete pass, the primary name of every referenced vertex is among the collected ones |
| Numbering.GatheredAreReached | ofblockmeshdicthelper/__init__.py:220-225 | every collected vertex is the vertex of some referenced name |
| Numbering.GatherStopsAtMissing | ofblockmeshdicthelper/__init__.py:222 | once a pass meets an unregistered name, later names change nothing |
| Numbering.GatherMeetsMissing | ofblockmeshdicthelper/__init__.py:222 | an unregistered name after a complete pass stops it with the slots collected so far |
| Numbering.GatherAppendsRegistered | ofblockmeshdicthelper/__init__.py:222-225 | a registered name adds its vertex exactly when its primary name was not yet collected |
| Numbering.GatherMeetsRegistered | ofblockmeshdicthelper/__init__.py:221-225 | the same step stated at name `j` of a block |
| Numbering.GatherStopsInBlock | ofblockmeshdicthelper/__init__.py:221-222 | an unregistered name inside a block ends the whole pass there |
| Numbering.GatheredDistinct | ofblockmeshdicthelper/__init__.py:223-225 | no vertex is collected twice |
| Numbering.ReferencesAppend | ofblockmeshdicthelper/__init__.py:220-221 | the names referenced by two block lists in a row are the first list's names followed by the second's |
| Numbering.ReferencesContain | ofblockmeshdicthelper/__init__.py:220-221 | every vertex name of every block is among the referenced names |
| Numbering.ReferencesPrefix | ofblockmeshdicthelper/__init__.py:220-221 | the names met before name `j` of block `bi` are a prefix of all referenced names |
| Numbering.GatherCollectsReached | ofblockmeshdicthelper/__init__.py:217-225 | with distinct primary names, every vertex a block names is collected |
| Numbering.NumberedListIsExact | ofblockmeshdicthelper/__init__.py:217-229 | the numbered list holds each vertex once, only vertices some block names, and (with distinct primary names) every vertex some block names |
| Numbering.IndexedBlocksResolve | ofblockmeshdicthelper/__init__.py:228-229 | once the vertices of a list are numbered by position and every block name reaches one of them, the blocks section succeeds and prints each name as the position of its vertex in that list |
| Numbering.NumberedBlocksResolve | ofblockmeshdicthelper/__init__.py:217-229 | after a complete numbering pass with distinct primary names, every vertex name of every block reaches a vertex of the numbered list, so the blocks section prints them all |
| Numbering.NameDeduplicationSkipsVertex | ofblockmeshdicthelper/__init__.py:223 | a reachable state in which a block names two different vertices and only one is numbered |
| Numbering.GatherBySlotIsExact | ofblockmeshdicthelper/__init__.py:217-225 | the collection pass with line 223 comparing vertices rather than primary names: it collects each vertex once, only vertices the references reach, and, when no name is missing, every vertex they reach, with no condition on primary names |
| Numbering.GatherBySlotKeepsVertex | ofblockmeshdicthelper/__init__.py:223 | on the state where the pass as written drops a vertex, the corrected pass collects both vertices the block names |
| Units.MetricFactor | ofblockmeshdicthelper/__init__.py:162-171 | a unit symbol has a factor exactly when it is one of the eight symbols of the table, and the factor is positive and at most 1000 |
| Units.MetricFactorsConsistent | ofblockmeshdicthelper/__init__.py:162-170 | km is 1000 m, m is 1 and 100 cm, cm is 10 mm, mm is 1000 um, um is 1000 nm, nm is 10 A, and A equals Angstrom |
| BlockMesh.BlockMeshDict.constructor | ofblockmeshdicthelper/__init__.py:154-158 | a new dictionary has factor 1.0, no vertices, blocks or boundaries, and no numbered list |
| BlockMesh.BlockMeshDict.BlockList | ofblockmeshdicthelper/__init__.py:259 | the blocks in insertion order |
| BlockMesh.BlockMeshDict.BoundaryList | ofblockmeshdicthelper/__init__.py:272 | the boundaries in insertion order |
| BlockMesh.BlockMeshDict.SetMetric | ofblockmeshdicthelper/__init__.py:160-171 | a known symbol sets the factor to its table value; any other symbol fails and leaves the factor unchanged |
| BlockMesh.BlockMeshDict.AddVertex | ofblockmeshdicthelper/__init__.py:173-180 | the dictionary becomes `Registry.Add` of the old one, and the returned slot holds the new vertex |
| BlockMesh.BlockMeshDict.DelVertex | ofblockmeshdicthelper/__init__.py:182-184 | succeeds exactly when the key exists; the dictionary becomes `Registry.Remove` of the old one, or stays as it was |
| BlockMesh.BlockMeshDict.ReduceVertex | ofblockmeshdicthelper/__init__.py:186-198 | the dictionary becomes `Registry.Reduce` of the old one, and the method reports the same missing name |
| BlockMesh.BlockMeshDict.MergeInto | ofblockmeshdicthelper/__init__.py:194-198 | the merge loop leaves the dictionary at `Registry.MergeAll` of the old one |
| BlockMesh.BlockMeshDict.AddHexBlock | ofblockmeshdicthelper/__init__.py:200-203 | stores the block under its name; a new name goes to the end of the block order, and an existing name keeps its place with the new block there |
| BlockMesh.BlockMeshDict.AddBoundary | ofblockmeshdicthelper/__init__.py:205-208 | stores a fresh boundary with the given type, name and faces; a new name goes to the end of the boundary order, and an existing name keeps its place |
| BlockMesh.BlockMeshDict.AssignVertexIds | ofblockmeshdicthelper/__init__.py:210-229 | the pass ends as `Gather` over the blocks' names says. On a missing name it keeps the partial list and changes no index. Otherwise the list is `SortSlots` of the collected vertices, and the vertex at position p gets index p, with every other vertex unchanged |
| BlockMesh.BlockMeshDict.GatherBlocks | ofblockmeshdicthelper/__init__.py:217-225 | the two collecting loops compute `Gather` over the blocks' names |
| BlockMesh.BlockMeshDict.GatherBlock | ofblockmeshdicthelper/__init__.py:221-225 | the inner loop over one block's names continues `Gather` by that block's names |
| BlockMesh.BlockMeshDict.NumberSlots | ofblockmeshdicthelper/__init__.py:228-229 | the `enumerate` loop gives the vertex at position p index p and changes nothing else |
| BlockMesh.BlockMeshDict.VerticesSection | ofblockmeshdicthelper/__init__.py:231-243 | the vertices section exists exactly when a numbering pass has run, and lists the numbered vertices in order |
| BlockMesh.BlockMeshDict.BlocksSection | ofblockmeshdicthelper/__init__.py:251-262 | the blocks section succeeds exactly when every block's names are registered, and lists the blocks in insertion order, each with name, cells and its vertices' indices in order |
| BlockMesh.BlockMeshDict.PatchList | ofblockmeshdicthelper/__init__.py:272 | the boundaries in insertion order, with their current faces |
| BlockMesh.BlockMeshDict.BoundarySection | ofblockmeshdicthelper/__init__.py:264-278 | the boundary section lists the boundaries in insertion order with type, name and face lines, and fails exactly when some boundary's faces fail |

## Left out

- Text formatting is not modelled: `'{:18.15g}'` coordinates, `str(convert_to_meters)`, the comment columns, the order in which Python prints a set of aliases, the `string.Template` banner and indentation. The output is modelled as index lists and record sequences instead.
- The constant `edges` and `mergePatchPairs` sections and `format()` itself are left out. They hold no logic.
- Boundary face lists are not shared. `Boundary.__init__` stores the caller's list object itself (line 126), whether that is the shared default `faces=[]` of `add_boundary` and `Boundary.__init__` or a list the caller passes. In Python, `add_face` on one boundary then also changes every other boundary holding that list, and later appends by the caller show up in the output. The model copies the faces into a sequence per boundary, so it captures none of this aliasing.
- `Vertex`, `HexBlock` and `Face` are values, so what callers can do with the live objects the source returns is not modelled. `add_vertex` returns the `Vertex` object itself (line 180). A caller can change its `x`, `y`, `z` or `alias` later, and every name sharing that vertex sees the change. `AddVertex` returns a slot number, and nothing outside the class can change the record through it. Likewise, Python callers could mutate a block's `vnames` list or a face's names after adding them; the model cannot express that.
- Coordinates are exact reals, so float rounding and NaN comparisons are not modelled.
- `setup.py` holds packaging metadata only.
- The errors Python raises (`KeyError`, `IndexError`, `AttributeError`) are returned values: a missing name, an error value or `None`.
- Sorting.SortSlots: proves sorted and a permutation, but not stability. The order of equal keys follows Python's stable `sorted`, yet no lemma states it.
- Sorting.SortSlots: sorts by the intended key, not by the comparison as written at line 29 (see Findings). The as-written `sorted` result is not modelled. Line 29 is not an order, and the result CPython's `sorted` returns under it depends on the details of its sort algorithm (for two vertices at one point, collected as [a, b], it sees a descending run and returns [b, a]). Modelling that would mean modelling that algorithm.
- Python 2 dict ordering is not modelled. Under Python 2, blocks and boundaries print in arbitrary order.

## Findings

| source | as written | input that shows it | evidently intended | confidence | as-written member | corrected member |
|---|---|---|---|---|---|---|
| ofblockmeshdicthelper/__init__.py:29 | `__lt__` compares `(self.z, self.y, self.x)` with `(rhs.z, rhs.y, rhs.z)`; `__eq__` at line 32 does the same | v = (0, 0, 1): `v < v` is true and `v == v` is false; with w = (0.5, 0, 1), both `v < w` and `w < v` hold | compare with `(rhs.z, rhs.y, rhs.x)`, a strict lexicographic order on (z, y, x) | high (not executed) | Vertices.AsWrittenComparisonIsNotAnOrder | Vertices.KeyLessIsStrictOrder |
| ofblockmeshdicthelper/__init__.py:102 | the default-name suffix of side 1 (east) is `'f-{}-n'`, the suffix of side 3 (north) | any block named `b`: `face('e')` and `face('n')` both get the name `f-b-n` | `'f-{}-e'`, one compass letter per side like the other five | high (not executed) | Topology.EastAndNorthDefaultNamesCollide | Topology.DefaultNamesDistinct |
| ofblockmeshdicthelper/__init__.py:223 | a vertex is skipped when a vertex with the same primary `name` was already collected | `add_vertex(0,0,0,'a')`, `add_vertex(1,0,0,'c')`, `reduce_vertex('a','c')`, `add_vertex(2,0,0,'a')`, then a block naming 'a' and 'c': 'c' reaches the old vertex, also named 'a', which is never numbered and prints `None` | skip only a vertex already collected (the same object) | medium (not executed) | Numbering.NameDeduplicationSkipsVertex | Numbering.GatherBySlotIsExact |

=== FILE: blockmeshdict.dfy ===
/** The `BlockMeshDict` builder: a unit factor, the vertex dictionary, the
    blocks and boundaries in insertion order, and the numbered vertex list
    the output is written from. */
module BlockMesh {
  import opened Wrappers
  import opened Vertices
  import opened Sorting
  import opened Registry
  import opened Topology
  import opened Render
  import opened Numbering
  import opened Units

  /** The values of `m` for the keys in `order`, in that order. */
  function InOrder<V>(m: map<string, V>, order: seq<string>): (r: seq<V>)
    requires forall i :: 0 <= i < |order| ==> order[i] in m
    ensures |r| == |order| && forall i :: 0 <= i < |order| ==> r[i] == m[order[i]]
  {
    seq(|order|, i requires 0 <= i < |order| => m[order[i]])
  }

  /** The keys of `m`, each once, in the order of `order`. */
  ghost predicate OrderedKeys<V>(m: map<string, V>, order: seq<string>) {
    Distinct(order) && forall k :: k in order <==> k in m
  }

  /** A snapshot of boundary objects as patch values. */
  function Snapshot(bs: seq<Boundary>): (ps: seq<Patch>)
    reads set i | 0 <= i < |bs| :: bs[i]
    ensures |ps| == |bs|
    ensures forall i :: 0 <= i < |bs| ==> ps[i] == Patch(bs[i].name, bs[i].kind, bs[i].faces)
    decreases |bs|
  {
    if bs == [] then []
    else
      var b := bs[|bs| - 1];
      Snapshot(bs[..|bs| - 1]) + [Patch(b.name, b.kind, b.faces)]
  }

  class BlockMeshDict {
    /** The factor written as `convertToMeters`. */
    var convertToMeters: real
    /** Vertex records; `vertices` maps each name to its slot here. */
    var arena: seq<Vertex>
    var vertices: map<string, nat>
    /** The blocks by name, and their names in insertion order. */
    var blocks: map<string, HexBlock>
    var blockOrder: seq<string>
    /** The boundaries by name, and their names in insertion order. */
    var boundaries: map<string, Boundary>
    var boundaryOrder: seq<string>
    /** The numbered vertices as arena slots; absent until the first
        numbering pass. */
    var validVertices: Option<seq<nat>>

    /** The vertex dictionary as a registry value. */
    function Reg(): Registry
      reads this
    {
      Registry(arena, vertices)
    }

    ghost predicate Valid()
      reads this
    {
      && WellFormed(Reg())
      && AliasesCover(Reg())
      && (validVertices.Some? ==> InArena(arena, validVertices.value))
      && OrderedKeys(blocks, blockOrder)
      && OrderedKeys(boundaries, boundaryOrder)
    }

    constructor ()
      ensures Valid()
      ensures convertToMeters == 1.0
      ensures arena == [] && vertices == map[]
      ensures blocks == map[] && blockOrder == []
      ensures boundaries == map[] && boundaryOrder == []
      ensures validVertices == None
    {
      convertToMeters := 1.0;
      arena := [];
      vertices := map[];
      blocks := map[];
      blockOrder := [];
      boundaries := map[];
      boundaryOrder := [];
      validVertices := None;
    }

    /** The blocks in insertion order. */
    function BlockList(): (bs: seq<HexBlock>)
      reads this
      requires Valid()
      ensures |bs| == |blockOrder|
      ensures forall i :: 0 <= i < |bs| ==> bs[i] == blocks[blockOrder[i]]
    {
      InOrder(blocks, blockOrder)
    }

    /** The boundaries in insertion order. */
    function BoundaryList(): (bs: seq<Boundary>)
      reads this
      requires Valid()
      ensures |bs| == |boundaryOrder|
      ensures forall i :: 0 <= i < |bs| ==> bs[i] == boundaries[boundaryOrder[i]] && bs[i] in boundaries.Values
    {
      InOrder(boundaries, boundaryOrder)
    }

    /** `set_metric`: the factor of a known unit symbol; an unknown symbol
        fails and leaves the factor as it was. */
    method SetMetric(metric: string) returns (ok: bool)
      modifies this`convertToMeters
      ensures ok <==> metric in MetricSymbols
      ensures convertToMeters == if ok then MetricFactor(metric).value else old(convertToMeters)
    {
      var factor := MetricFactor(metric);
      if factor.None? {
        return false;
      }
      convertToMeters := factor.value;
      return true;
    }

    /** `add_vertex`: registers a new vertex under `name` and returns its
        slot. */
    method AddVertex(x: real, y: real, z: real, name: string) returns (slot: nat)
      requires Valid()
      modifies this`arena, this`vertices
      ensures Valid()
      ensures Reg() == Add(old(Reg()), x, y, z, name)
      ensures slot == vertices[name] && arena[slot] == NewVertex(x, y, z, name)
    {
      slot := |arena|;
      arena := arena + [NewVertex(x, y, z, name)];
      vertices := vertices[name := slot];
    }

    /** `del_vertex`: removes the key `name`; fails when it is absent. */
    method DelVertex(name: string) returns (ok: bool)
      requires Valid()
      modifies this`vertices
      ensures Valid()
      ensures ok <==> name in old(vertices)
      ensures Reg() == if ok then Remove(old(Reg()), name).value else old(Reg())
    {
      if name !in vertices {
        return false;
      }
      vertices := vertices - {name};
      return true;
    }

    /** `reduce_vertex(name1, *names)`: merges each name into the vertex of
        `name1`, in order; stops at the first name that is not registered
        and returns it, keeping the merges already done. */
    method ReduceVertex(name1: string, names: seq<string>) returns (missing: Option<string>)
      requires Valid()
      modifies this`arena, this`vertices
      ensures Valid()
      ensures Reg() == Reduce(old(Reg()), name1, names).reg
      ensures missing == Reduce(old(Reg()), name1, names).missing
    {
      if name1 !in vertices {
        return Some(name1);
      }
      missing := MergeInto(vertices[name1], names);
    }

    /** The loop of `reduce_vertex`: merges each of `names` in turn into the
        vertex in slot `s`. */
    method MergeInto(s: nat, names: seq<string>) returns (missing: Option<string>)
      requires WellFormed(Reg()) && s < |arena|
      modifies this`arena, this`vertices
      ensures Reg() == MergeAll(old(Reg()), s, names).reg
      ensures missing == MergeAll(old(Reg()), s, names).missing
    {
      assert names[0..] == names;
      var i := 0;
      while i < |names|
        invariant 0 <= i <= |names|
        invariant WellFormed(Reg()) && s < |arena|
        invariant MergeAll(Reg(), s, names[i..]) == MergeAll(old(Reg()), s, names)
      {
        var n := names[i];
        MergeAllFrom(Reg(), s, names, i);
        if n !in vertices {
          return Some(n);
        }
        var v := arena[s];
        arena := arena[s := v.(alias := v.alias + arena[vertices[n]].alias)];
        vertices := vertices[n := s];
        i := i + 1;
      }
      assert names[i..] == [];
      return None;
    }

    /** `add_hexblock`: stores a block under `name`. A new name goes last;
        a name already present keeps its place. */
    method AddHexBlock(vnames: seq<string>, cells: (int, int, int), name: string) returns (b: HexBlock)
      requires Valid()
      modifies this`blocks, this`blockOrder
      ensures Valid()
      ensures b == HexBlock(vnames, cells, name)
      ensures blocks == old(blocks)[name := b]
      ensures name !in old(blocks) ==> BlockList() == old(BlockList()) + [b]
      ensures name in old(blocks) ==> blockOrder == old(blockOrder)
      ensures name in old(blocks) ==>
        exists p :: 0 <= p < |blockOrder| && blockOrder[p] == name && BlockList() == old(BlockList())[p := b]
    {
      b := HexBlock(vnames, cells, name);
      if name !in blocks {
        blockOrder := blockOrder + [name];
      }
      blocks := blocks[name := b];
    }

    /** `add_boundary`: stores a new boundary under `name` and returns it. A
        new name goes last; a name already present keeps its place. */
    method AddBoundary(kind: string, name: string, faces: seq<Face>) returns (b: Boundary)
      requires Valid()
      modifies this`boundaries, this`boundaryOrder
      ensures Valid()
      ensures fresh(b) && b.kind == kind && b.name == name && b.faces == faces
      ensures boundaries == old(boundaries)[name := b]
      ensures boundaryOrder == if name in old(boundaries) then old(boundaryOrder) else old(boundaryOrder) + [name]
    {
      b := new Boundary(kind, name, faces);
      if name !in boundaries {
        boundaryOrder := boundaryOrder + [name];
      }
      boundaries := boundaries[name := b];
    }

    /** `assign_vertexid`: collects the vertices the blocks name, one per
        primary name, sorts them and numbers them 0, 1, ... in that order.
        A block name that is not registered stops the pass: the vertices
        collected so far become the (unsorted) list and no index changes. */
    method AssignVertexIds() returns (missing: Option<string>)
      requires Valid()
      modifies this`arena, this`validVertices
      ensures Valid() && vertices == old(vertices) && |arena| == |old(arena)|
      ensures var g := Gather(old(Reg()), References(BlockList()));
        && missing == g.missing
        && (missing.Some? ==> arena == old(arena) && validVertices == Some(g.slots))
        && (missing.None? ==> validVertices == Some(SortSlots(old(arena), g.slots)))
      ensures missing.None? ==> IndexedBy(old(arena), arena, validVertices.value)
    {
      var blist := BlockList();
      var collected;
      collected, missing := GatherBlocks(blist);
      if missing.Some? {
        validVertices := Some(collected);
        return;
      }
      NumberedListIsExact(Reg(), References(blist));
      var sorted := SortSlots(arena, collected);
      ghost var g := Gather(Reg(), References(blist));
      assert g == Gathered(collected, None);
      validVertices := Some(sorted);
      NumberSlots(sorted);
      assert BlockList() == blist;
    }

    /** The collecting loops of the numbering pass: the blocks of `blist` in
        order, the names of each block in order. */
    method GatherBlocks(blist: seq<HexBlock>) returns (collected: seq<nat>, missing: Option<string>)
      requires WellFormed(Reg())
      ensures Gather(Reg(), References(blist)) == Gathered(collected, missing)
    {
      collected := [];
      var seen: set<string> := {};
      var bi := 0;
      while bi < |blist|
        invariant 0 <= bi <= |blist|
        invariant InArena(arena, collected)
        invariant Gather(Reg(), References(blist[..bi])) == Gathered(collected, None)
        invariant seen == PrimaryNames(arena, collected)
      {
        var vn := blist[bi].vnames;
        assert References(blist[..bi + 1]) == References(blist[..bi]) + vn by {
          assert blist[..bi + 1][..bi] == blist[..bi];
        }
        collected, seen, missing := GatherBlock(References(blist[..bi]), vn, collected, seen);
        if missing.Some? {
          var rest := ReferencesPrefix(blist, bi, |vn|);
          assert vn[..|vn|] == vn;
          GatherStopsAtMissing(Reg(), References(blist[..bi + 1]), rest);
          return;
        }
        bi := bi + 1;
      }
      assert blist[..|blist|] == blist;
      missing := None;
    }

    /** One block's share of the numbering pass: walks `vn`, continuing a
        pass that has met the names `done` and collected `collected`, whose
        primary names are `seen`. */
    method GatherBlock(ghost done: seq<string>, vn: seq<string>, collected: seq<nat>, seen: set<string>)
      returns (slots: seq<nat>, seen': set<string>, missing: Option<string>)
      requires WellFormed(Reg()) && InArena(arena, collected)
      requires Gather(Reg(), done) == Gathered(collected, None) && seen == PrimaryNames(arena, collected)
      ensures Gather(Reg(), done + vn) == Gathered(slots, missing)
      ensures missing.None? ==> seen' == PrimaryNames(arena, slots)
    {
      ghost var r := Reg();
      slots, seen' := collected, seen;
      var j := 0;
      assert done + vn[..0] == done;
      while j < |vn|
        invariant 0 <= j <= |vn|
        invariant r == Reg()
        invariant InArena(arena, slots)
        invariant Gather(r, done + vn[..j]) == Gathered(slots, None)
        invariant seen' == PrimaryNames(arena, slots)
      {
        var n := vn[j];
        if n !in vertices {
          GatherStopsInBlock(r, done, vn, j, slots);
          return slots, seen', Some(n);
        }
        GatherMeetsRegistered(r, done, vn, j, slots);
        var s := vertices[n];
        if arena[s].name !in seen' {
          PrimaryNamesAppend(arena, slots, s);
          seen' := seen' + {arena[s].name};
          slots := slots + [s];
        }
        j := j + 1;
      }
      assert vn[..|vn|] == vn;
      missing := None;
    }

    /** The final loop of the numbering pass: the vertex in slot `sorted[p]`
        gets index `p`, for every `p`. */
    method NumberSlots(sorted: seq<nat>)
      requires Distinct(sorted) && InArena(arena, sorted)
      modifies this`arena
      ensures IndexedBy(old(arena), arena, sorted)
      ensures forall s :: 0 <= s < |arena| ==> arena[s].name == old(arena)[s].name && arena[s].alias == old(arena)[s].alias
    {
      var p := 0;
      while p < |sorted|
        invariant 0 <= p <= |sorted|
        invariant |arena| == |old(arena)|
        invariant forall s :: 0 <= s < |arena| ==> arena[s].name == old(arena)[s].name && arena[s].alias == old(arena)[s].alias
        invariant forall q :: 0 <= q < p ==> arena[sorted[q]] == old(arena)[sorted[q]].(index := Some(q))
        invariant forall s :: 0 <= s < |arena| && s !in sorted[..p] ==> arena[s] == old(arena)[s]
      {
        arena := arena[sorted[p] := arena[sorted[p]].(index := Some(p))];
        assert sorted[..p + 1] == sorted[..p] + [sorted[p]];
        p := p + 1;
      }
      assert sorted[..p] == sorted;
    }

    /** `format_vertices_section`: the numbered vertices, in numbering
        order; absent before the first numbering pass. */
    function VerticesSection(): (r: Option<seq<Vertex>>)
      reads this
      requires Valid()
      ensures r.Some? <==> validVertices.Some?
      ensures r.Some? ==> |r.value| == |validVertices.value|
      ensures r.Some? ==> forall p :: 0 <= p < |r.value| ==> r.value[p] == arena[validVertices.value[p]]
    {
      match validVertices
      case None => None
      case Some(valid) =>
        var a := arena;
        Some(seq(|valid|, p requires 0 <= p < |valid| => a[valid[p]]))
    }

    /** `format_blocks_section`: every block in insertion order, each
        vertex name as the index of its vertex; fails on an unregistered
        name. */
    function BlocksSection(): (r: Result<seq<BlockOut>, string>)
      reads this
      requires Valid()
      ensures r.Ok? <==> forall i, j :: 0 <= i < |blockOrder| && 0 <= j < |blocks[blockOrder[i]].vnames| ==>
        blocks[blockOrder[i]].vnames[j] in vertices
      ensures r.Ok? ==> |r.value| == |blockOrder| && forall i :: 0 <= i < |blockOrder| ==>
        var b := blocks[blockOrder[i]];
        && r.value[i].name == b.name && r.value[i].cells == b.cells && |r.value[i].indices| == |b.vnames|
        && forall j :: 0 <= j < |b.vnames| ==> r.value[i].indices[j] == arena[vertices[b.vnames[j]]].index
    {
      RenderBlocks(Reg(), BlockList())
    }

    /** The boundaries in insertion order, as patch values. */
    function PatchList(): (ps: seq<Patch>)
      reads this, boundaries.Values
      requires Valid()
      ensures |ps| == |boundaryOrder|
      ensures forall i :: 0 <= i < |ps| ==> var b := boundaries[boundaryOrder[i]]; ps[i] == Patch(b.name, b.kind, b.faces)
    {
      Snapshot(BoundaryList())
    }

    /** `format_boundary_section`: every boundary in insertion order with its
        type and its faces in the order they were added, each vertex name as
        the index of its vertex; fails on an unregistered name. */
    function BoundarySection(): (r: Result<seq<PatchOut>, string>)
      reads this, boundaries.Values
      requires Valid()
      ensures r.Ok? ==> |r.value| == |boundaryOrder| && forall i :: 0 <= i < |boundaryOrder| ==>
        var b := boundaries[boundaryOrder[i]];
        && r.value[i].name == b.name && r.value[i].kind == b.kind
        && RenderFaces(Reg(), b.faces) == Ok(r.value[i].faces)
      ensures r.Err? <==> exists i :: 0 <= i < |boundaryOrder| && RenderFaces(Reg(), boundaries[boundaryOrder[i]].faces).Err?
    {
      RenderPatches(Reg(), PatchList())
    }
  }
}

=== FILE: numbering.dfy ===
/** The numbering pass: which vertices the blocks use, in what order they
    are numbered, and what the blocks section then prints. */
module Numbering {
  import opened Wrappers
  import opened Vertices
  import opened Sorting
  import opened Registry
  import opened Topology
  import opened Render

  /** Every vertex name the blocks refer to, block after block, each block's
      names in order. */
  function References(blocks: seq<HexBlock>): seq<string>
    decreases |blocks|
  {
    if blocks == [] then [] else References(blocks[..|blocks| - 1]) + blocks[|blocks| - 1].vnames
  }

  /** The primary names of the vertices in `slots`. */
  function PrimaryNames(arena: seq<Vertex>, slots: seq<nat>): set<string>
    requires InArena(arena, slots)
  {
    set i | 0 <= i < |slots| :: arena[slots[i]].name
  }

  lemma PrimaryNamesAppend(arena: seq<Vertex>, slots: seq<nat>, s: nat)
    requires InArena(arena, slots) && s < |arena|
    ensures InArena(arena, slots + [s])
    ensures PrimaryNames(arena, slots + [s]) == PrimaryNames(arena, slots) + {arena[s].name}
  {
    var all := slots + [s];
    forall nm | nm in PrimaryNames(arena, all)
      ensures nm in PrimaryNames(arena, slots) + {arena[s].name}
    {
      var i :| 0 <= i < |all| && arena[all[i]].name == nm;
      if i < |slots| {
        assert all[i] == slots[i];
      }
    }
    forall nm | nm in PrimaryNames(arena, slots)
      ensures nm in PrimaryNames(arena, all)
    {
      var i :| 0 <= i < |slots| && arena[slots[i]].name == nm;
      assert all[i] == slots[i];
    }
    assert all[|slots|] == s;
  }

  /** Outcome of gathering: the slots collected, and the first name found
      unregistered, if any (gathering stops there). */
  datatype Gathered = Gathered(slots: seq<nat>, missing: Option<string>)

  /** Walks `refs` in order and collects the vertex of each name unless a
      vertex with the same primary name was already collected; stops at the
      first name that is not registered. */
  function Gather(r: Registry, refs: seq<string>): (g: Gathered)
    requires WellFormed(r)
    ensures InArena(r.arena, g.slots)
    decreases |refs|
  {
    if refs == [] then Gathered([], None)
    else
      var init, n := refs[..|refs| - 1], refs[|refs| - 1];
      var h := Gather(r, init);
      if h.missing.Some? then h
      else if n !in r.keys then Gathered(h.slots, Some(n))
      else if r.arena[r.keys[n]].name in PrimaryNames(r.arena, h.slots) then h
      else
        var slots := h.slots + [r.keys[n]];
        PrimaryNamesAppend(r.arena, h.slots, r.keys[n]);
        Gathered(slots, None)
  }

  /** The pass stops exactly when some reference is unregistered, and
      then at such a reference. */
  lemma {:induction false} GatherOutcome(r: Registry, refs: seq<string>)
    requires WellFormed(r)
    ensures var g := Gather(r, refs);
      && (g.missing.None? <==> forall i :: 0 <= i < |refs| ==> refs[i] in r.keys)
      && (g.missing.Some? ==> g.missing.value in refs && g.missing.value !in r.keys)
    decreases |refs|
  {
    if refs != [] {
      var init := refs[..|refs| - 1];
      GatherOutcome(r, init);
      assert refs == init + [refs[|refs| - 1]];
    }
  }

  /** The collected vertices carry pairwise distinct primary names. */
  lemma {:induction false} GatheredNamesDistinct(r: Registry, refs: seq<string>)
    requires WellFormed(r)
    ensures forall i, j :: 0 <= i < j < |Gather(r, refs).slots| ==>
      r.arena[Gather(r, refs).slots[i]].name != r.arena[Gather(r, refs).slots[j]].name
    decreases |refs|
  {
    if refs != [] {
      var init, n := refs[..|refs| - 1], refs[|refs| - 1];
      GatheredNamesDistinct(r, init);
      var g, h := Gather(r, refs), Gather(r, init);
      if g.slots != h.slots {
        assert g.slots == h.slots + [r.keys[n]];
        forall i, j | 0 <= i < j < |g.slots|
          ensures r.arena[g.slots[i]].name != r.arena[g.slots[j]].name
        {
          assert g.slots[i] == h.slots[i];
          if j == |h.slots| {
            assert g.slots[j] == r.keys[n];
            assert r.arena[r.keys[n]].name !in PrimaryNames(r.arena, h.slots);
            assert r.arena[h.slots[i]].name in PrimaryNames(r.arena, h.slots);
          } else {
            assert g.slots[j] == h.slots[j];
          }
        }
      }
    }
  }

  /** A completed pass has collected a vertex of every referenced primary
      name. */
  lemma {:induction false} GatherCovers(r: Registry, refs: seq<string>)
    requires WellFormed(r) && Gather(r, refs).missing.None?
    ensures forall i :: 0 <= i < |refs| ==>
      refs[i] in r.keys && r.arena[r.keys[refs[i]]].name in PrimaryNames(r.arena, Gather(r, refs).slots)
    decreases |refs|
  {
    if refs != [] {
      var init, n := refs[..|refs| - 1], refs[|refs| - 1];
      var g, h := Gather(r, refs), Gather(r, init);
      assert h.missing.None? && n in r.keys;
      GatherCovers(r, init);
      if g.slots != h.slots {
        PrimaryNamesAppend(r.arena, h.slots, r.keys[n]);
      }
      forall i | 0 <= i < |refs|
        ensures refs[i] in r.keys && r.arena[r.keys[refs[i]]].name in PrimaryNames(r.arena, g.slots)
      {
        if i < |init| {
          assert refs[i] == init[i];
        }
      }
    }
  }

  /** Some name in `refs` is registered and leads to slot `s`. */
  ghost predicate Reaches(r: Registry, refs: seq<string>, s: nat) {
    exists j :: 0 <= j < |refs| && refs[j] in r.keys && r.keys[refs[j]] == s
  }

  /** Only vertices that some reference reaches are collected. */
  lemma {:induction false} GatheredAreReached(r: Registry, refs: seq<string>)
    requires WellFormed(r)
    ensures forall i :: 0 <= i < |Gather(r, refs).slots| ==> Reaches(r, refs, Gather(r, refs).slots[i])
    decreases |refs|
  {
    if refs != [] {
      var init := refs[..|refs| - 1];
      GatheredAreReached(r, init);
      var g, h := Gather(r, refs), Gather(r, init);
      forall i | 0 <= i < |g.slots|
        ensures Reaches(r, refs, g.slots[i])
      {
        if i < |h.slots| {
          assert g.slots[i] == h.slots[i];
          assert Reaches(r, init, h.slots[i]);
          var j :| 0 <= j < |init| && init[j] in r.keys && r.keys[init[j]] == h.slots[i];
          assert refs[j] == init[j];
        } else {
          assert refs[|refs| - 1] in r.keys && r.keys[refs[|refs| - 1]] == g.slots[i];
        }
      }
    }
  }

  /** Once gathering has stopped at a missing name, later names change
      nothing. */
  lemma {:induction false} GatherStopsAtMissing(r: Registry, refs: seq<string>, more: seq<string>)
    requires WellFormed(r) && Gather(r, refs).missing.Some?
    ensures Gather(r, refs + more) == Gather(r, refs)
    decreases |more|
  {
    if more == [] {
      assert refs + more == refs;
    } else {
      var init := more[..|more| - 1];
      GatherStopsAtMissing(r, refs, init);
      var all := refs + more;
      assert all[..|all| - 1] == refs + init;
      assert Gather(r, all) == Gather(r, refs + init);
    }
  }

  /** An unregistered name after a completed pass ends it there. */
  lemma GatherMeetsMissing(r: Registry, refs: seq<string>, n: string)
    requires WellFormed(r) && Gather(r, refs).missing.None? && n !in r.keys
    ensures Gather(r, refs + [n]) == Gathered(Gather(r, refs).slots, Some(n))
  {
    var all := refs + [n];
    assert all[..|all| - 1] == refs && all[|all| - 1] == n;
  }

  lemma GatherAppendsRegistered(r: Registry, refs: seq<string>, n: string)
    requires WellFormed(r) && Gather(r, refs).missing.None? && n in r.keys
    ensures var h := Gather(r, refs);
      Gather(r, refs + [n]) ==
        if r.arena[r.keys[n]].name in PrimaryNames(r.arena, h.slots) then h
        else Gathered(h.slots + [r.keys[n]], None)
  {
    var all := refs + [n];
    assert all[..|all| - 1] == refs && all[|all| - 1] == n;
  }

  /** A registered name met after `done` and the first `j` names of `vn`
      adds its vertex unless one with the same primary name is already
      collected. */
  lemma GatherMeetsRegistered(r: Registry, done: seq<string>, vn: seq<string>, j: nat, slots: seq<nat>)
    requires WellFormed(r) && j < |vn| && vn[j] in r.keys
    requires Gather(r, done + vn[..j]) == Gathered(slots, None)
    ensures Gather(r, done + vn[..j + 1]) ==
      if r.arena[r.keys[vn[j]]].name in PrimaryNames(r.arena, slots) then Gathered(slots, None)
      else Gathered(slots + [r.keys[vn[j]]], None)
  {
    assert done + vn[..j + 1] == (done + vn[..j]) + [vn[j]];
    GatherAppendsRegistered(r, done + vn[..j], vn[j]);
  }

  /** A name that is not registered, met after `done` and before the
      rest of `vn`, ends the pass with what `done` collected. */
  lemma GatherStopsInBlock(r: Registry, done: seq<string>, vn: seq<string>, j: nat, slots: seq<nat>)
    requires WellFormed(r) && j < |vn| && vn[j] !in r.keys
    requires Gather(r, done + vn[..j]) == Gathered(slots, None)
    ensures Gather(r, done + vn) == Gathered(slots, Some(vn[j]))
  {
    var upto := (done + vn[..j]) + [vn[j]];
    GatherMeetsMissing(r, done + vn[..j], vn[j]);
    GatherStopsAtMissing(r, upto, vn[j + 1..]);
    assert vn == vn[..j] + [vn[j]] + vn[j + 1..];
    assert upto + vn[j + 1..] == done + vn;
  }

  /** The collected slots are pairwise distinct (they carry distinct
      primary names). */
  lemma GatheredDistinct(r: Registry, refs: seq<string>)
    requires WellFormed(r)
    ensures Distinct(Gather(r, refs).slots)
  {
    GatheredNamesDistinct(r, refs);
  }

  lemma {:induction false} ReferencesAppend(a: seq<HexBlock>, b: seq<HexBlock>)
    ensures References(a + b) == References(a) + References(b)
    decreases |b|
  {
    if b == [] {
      assert a + b == a;
    } else {
      var init := b[..|b| - 1];
      ReferencesAppend(a, init);
      var all := a + b;
      assert all[..|all| - 1] == a + init;
      assert all[|all| - 1] == b[|b| - 1];
      assert References(all) == References(a + init) + b[|b| - 1].vnames;
      assert References(b) == References(init) + b[|b| - 1].vnames;
      assert References(a) + References(init) + b[|b| - 1].vnames == References(a) + (References(init) + b[|b| - 1].vnames);
    }
  }

  /** Every name of every block is among the references. */
  lemma {:induction false} ReferencesContain(blocks: seq<HexBlock>, i: nat, j: nat)
    requires i < |blocks| && j < |blocks[i].vnames|
    ensures blocks[i].vnames[j] in References(blocks)
    decreases |blocks|
  {
    if i < |blocks| - 1 {
      ReferencesContain(blocks[..|blocks| - 1], i, j);
    }
  }

  /** The references of the first `bi` blocks, followed by the first `j`
      names of block `bi`, are a prefix of all references. */
  lemma ReferencesPrefix(blocks: seq<HexBlock>, bi: nat, j: nat) returns (rest: seq<string>)
    requires bi < |blocks| && j <= |blocks[bi].vnames|
    ensures References(blocks) == References(blocks[..bi]) + blocks[bi].vnames[..j] + rest
  {
    var vn := blocks[bi].vnames;
    assert blocks == blocks[..bi + 1] + blocks[bi + 1..];
    ReferencesAppend(blocks[..bi + 1], blocks[bi + 1..]);
    assert blocks[..bi + 1][..bi] == blocks[..bi];
    assert vn == vn[..j] + vn[j..];
    rest := vn[j..] + References(blocks[bi + 1..]);
  }

  /** The arena after numbering: the vertex in slot `valid[p]` gets index
      `p`, every other slot is as before. */
  ghost predicate IndexedBy(before: seq<Vertex>, after: seq<Vertex>, valid: seq<nat>) {
    && |after| == |before|
    && InArena(before, valid)
    && (forall p :: 0 <= p < |valid| ==> after[valid[p]] == before[valid[p]].(index := Some(p)))
    && (forall s :: 0 <= s < |before| && s !in valid ==> after[s] == before[s])
  }

  /** No two vertices reachable by name share a primary name. */
  ghost predicate DistinctPrimaryNames(r: Registry)
    requires WellFormed(r)
  {
    forall k1, k2 :: k1 in r.keys && k2 in r.keys && r.arena[r.keys[k1]].name == r.arena[r.keys[k2]].name
      ==> r.keys[k1] == r.keys[k2]
  }

  /** When reachable vertices have distinct primary names, gathering
      collects exactly the vertices the references reach, each once. */
  lemma GatherCollectsReached(r: Registry, refs: seq<string>)
    requires WellFormed(r) && DistinctPrimaryNames(r) && Gather(r, refs).missing.None?
    ensures var g := Gather(r, refs);
      forall n :: n in refs ==> n in r.keys && r.keys[n] in g.slots
  {
    var g := Gather(r, refs);
    GatherCovers(r, refs);
    GatheredAreReached(r, refs);
    forall n | n in refs
      ensures n in r.keys && r.keys[n] in g.slots
    {
      var i :| 0 <= i < |refs| && refs[i] == n;
      var q :| 0 <= q < |g.slots| && r.arena[g.slots[q]].name == r.arena[r.keys[n]].name;
      var j :| 0 <= j < |refs| && refs[j] in r.keys && r.keys[refs[j]] == g.slots[q];
    }
  }

  /** The pass as evidently intended: a vertex is skipped only when the
      same vertex (the same slot) was already collected, whatever its
      primary name; it stops at the first name that is not registered. */
  function GatherBySlot(r: Registry, refs: seq<string>): (g: Gathered)
    requires WellFormed(r)
    ensures InArena(r.arena, g.slots)
    decreases |refs|
  {
    if refs == [] then Gathered([], None)
    else
      var init, n := refs[..|refs| - 1], refs[|refs| - 1];
      var h := GatherBySlot(r, init);
      if h.missing.Some? then h
      else if n !in r.keys then Gathered(h.slots, Some(n))
      else if r.keys[n] in h.slots then h
      else Gathered(h.slots + [r.keys[n]], None)
  }

  /** Deduplicating by slot collects each vertex once, only vertices the
      references reach, and, when the pass completes, every vertex they
      reach, with no condition on primary names. */
  lemma {:induction false} GatherBySlotIsExact(r: Registry, refs: seq<string>)
    requires WellFormed(r)
    ensures var g := GatherBySlot(r, refs);
      && Distinct(g.slots)
      && (forall i :: 0 <= i < |g.slots| ==> Reaches(r, refs, g.slots[i]))
      && (g.missing.None? ==> forall i :: 0 <= i < |refs| ==> refs[i] in r.keys && r.keys[refs[i]] in g.slots)
    decreases |refs|
  {
    if refs != [] {
      var init, n := refs[..|refs| - 1], refs[|refs| - 1];
      GatherBySlotIsExact(r, init);
      var g, h := GatherBySlot(r, refs), GatherBySlot(r, init);
      forall i | 0 <= i < |g.slots|
        ensures Reaches(r, refs, g.slots[i])
      {
        if i < |h.slots| {
          assert g.slots[i] == h.slots[i];
          var j :| 0 <= j < |init| && init[j] in r.keys && r.keys[init[j]] == h.slots[i];
          assert refs[j] == init[j];
        } else {
          assert refs[|refs| - 1] in r.keys && r.keys[refs[|refs| - 1]] == g.slots[i];
        }
      }
      if g.missing.None? {
        forall i | 0 <= i < |refs|
          ensures refs[i] in r.keys && r.keys[refs[i]] in g.slots
        {
          if i < |init| {
            assert refs[i] == init[i];
          }
        }
      }
    }
  }

  /** On the registry of `NameDeduplicationSkipsVertex`, the corrected pass
      collects both vertices the block names. */
  lemma GatherBySlotKeepsVertex()
    ensures var r0 := Add(Add(Registry([], map[]), 0.0, 0.0, 0.0, "a"), 1.0, 0.0, 0.0, "c");
      var r := Add(Reduce(r0, "a", ["c"]).reg, 2.0, 0.0, 0.0, "a");
      GatherBySlot(r, ["a", "c"]) == Gathered([2, 0], None)
  {
    var r0 := Add(Add(Registry([], map[]), 0.0, 0.0, 0.0, "a"), 1.0, 0.0, 0.0, "c");
    var r1 := Reduce(r0, "a", ["c"]).reg;
    assert r1.keys == map["a" := 0, "c" := 0];
    var r := Add(r1, 2.0, 0.0, 0.0, "a");
    assert r.keys["a"] == 2 && r.keys["c"] == 0;
    assert ["a", "c"][..1] == ["a"];
    assert ["a"][..0] == [];
    var sl: seq<nat> := [2];
    assert GatherBySlot(r, ["a"]) == Gathered(sl, None);
    assert r.keys["c"] !in sl;
    assert sl + [r.keys["c"]] == [2, 0];
  }

  /** The sorted list a successful numbering pass produces holds each
      collected vertex once and only vertices the references reach; with
      distinct primary names it holds every vertex they reach. */
  lemma NumberedListIsExact(r: Registry, refs: seq<string>)
    requires WellFormed(r) && Gather(r, refs).missing.None?
    ensures var valid := SortSlots(r.arena, Gather(r, refs).slots);
      && Distinct(valid)
      && (forall p :: 0 <= p < |valid| ==> Reaches(r, refs, valid[p]))
      && (DistinctPrimaryNames(r) ==> forall n :: n in refs ==> n in r.keys && r.keys[n] in valid)
  {
    var g := Gather(r, refs);
    var valid := SortSlots(r.arena, g.slots);
    GatheredDistinct(r, refs);
    GatheredAreReached(r, refs);
    forall p | 0 <= p < |valid|
      ensures Reaches(r, refs, valid[p])
    {
      assert valid[p] in g.slots;
      var q :| 0 <= q < |g.slots| && g.slots[q] == valid[p];
    }
    if DistinctPrimaryNames(r) {
      GatherCollectsReached(r, refs);
    }
  }

  /** Once the vertices in `valid` are numbered by their positions, a
      blocks section whose every vertex name reaches one of them prints each
      name as the position of its vertex in `valid`. */
  lemma IndexedBlocksResolve(r: Registry, blocks: seq<HexBlock>, valid: seq<nat>, after: seq<Vertex>)
    requires WellFormed(r) && IndexedBy(r.arena, after, valid)
    requires forall i, j :: 0 <= i < |blocks| && 0 <= j < |blocks[i].vnames| ==>
      blocks[i].vnames[j] in r.keys && r.keys[blocks[i].vnames[j]] in valid
    ensures WellFormed(Registry(after, r.keys))
    ensures var out := RenderBlocks(Registry(after, r.keys), blocks);
      && out.Ok? && |out.value| == |blocks|
      && forall i, j :: 0 <= i < |blocks| && 0 <= j < |blocks[i].vnames| ==>
           var ix := out.value[i].indices[j];
           ix.Some? && ix.value < |valid| && valid[ix.value] == r.keys[blocks[i].vnames[j]]
  {
    forall i, j | 0 <= i < |blocks| && 0 <= j < |blocks[i].vnames|
      ensures var t := r.keys[blocks[i].vnames[j]];
        exists p :: 0 <= p < |valid| && valid[p] == t && after[t].index == Some(p)
    {
      var t := r.keys[blocks[i].vnames[j]];
      var p :| 0 <= p < |valid| && valid[p] == t;
    }
  }

  /** After a successful numbering pass, and with distinct primary names,
      every vertex name of every block reaches a numbered vertex, so the
      blocks section prints them all (by `IndexedBlocksResolve`). */
  lemma NumberedBlocksResolve(r: Registry, blocks: seq<HexBlock>)
    requires WellFormed(r) && DistinctPrimaryNames(r)
    requires Gather(r, References(blocks)).missing.None?
    ensures forall i, j :: 0 <= i < |blocks| && 0 <= j < |blocks[i].vnames| ==>
      blocks[i].vnames[j] in r.keys && r.keys[blocks[i].vnames[j]] in SortSlots(r.arena, Gather(r, References(blocks)).slots)
  {
    var refs := References(blocks);
    NumberedListIsExact(r, refs);
    forall i, j | 0 <= i < |blocks| && 0 <= j < |blocks[i].vnames|
      ensures blocks[i].vnames[j] in r.keys && r.keys[blocks[i].vnames[j]] in SortSlots(r.arena, Gather(r, refs).slots)
    {
      ReferencesContain(blocks, i, j);
    }
  }

  /** With primary names shared, a referenced vertex can be left out: after
      adding "a", adding "c", merging "c" into "a" and adding "a" again,
      "a" and "c" reach different vertices with the same primary name, and a
      block naming both collects only the vertex of "a". */
  lemma NameDeduplicationSkipsVertex()
    ensures var r0 := Add(Add(Registry([], map[]), 0.0, 0.0, 0.0, "a"), 1.0, 0.0, 0.0, "c");
      var r := Add(Reduce(r0, "a", ["c"]).reg, 2.0, 0.0, 0.0, "a");
      && r.keys["a"] == 2 && r.keys["c"] == 0
      && Gather(r, ["a", "c"]) == Gathered([2], None)
  {
    var r0 := Add(Add(Registry([], map[]), 0.0, 0.0, 0.0, "a"), 1.0, 0.0, 0.0, "c");
    var r1 := Reduce(r0, "a", ["c"]).reg;
    assert r1.keys == map["a" := 0, "c" := 0];
    var r := Add(r1, 2.0, 0.0, 0.0, "a");
    assert r.arena[0].name == "a" && r.arena[2].name == "a";
    assert ["a", "c"][..1] == ["a"];
    assert [ "a"][..0] == [];
    var sl: seq<nat> := [2];
    assert Gather(r, ["a"]) == Gathered(sl, None);
    assert r.arena[sl[0]].name == "a";
    assert "a" in PrimaryNames(r.arena, sl);
  }
}

=== FILE: registry.dfy ===
/** The vertex dictionary as an arena. `arena` holds vertex records; `keys`
    maps each registered name to the slot of its vertex. Names merged
    together map to the same slot, so a change to that slot's alias set is
    seen through all of them. */
module Registry {
  import opened Wrappers
  import opened Vertices

  datatype Registry = Registry(arena: seq<Vertex>, keys: map<string, nat>)

  /** Every name maps to a slot of the arena. */
  ghost predicate WellFormed(r: Registry) {
    forall k :: k in r.keys ==> r.keys[k] < |r.arena|
  }

  /** Every name is among the aliases of the vertex it maps to. */
  ghost predicate AliasesCover(r: Registry)
    requires WellFormed(r)
  {
    forall k :: k in r.keys ==> k in r.arena[r.keys[k]].alias
  }

  /** Registers a new vertex under `name`; an existing entry for `name` is
      replaced, every other name keeps its vertex. */
  function Add(r: Registry, x: real, y: real, z: real, name: string): (r': Registry)
    requires WellFormed(r)
    ensures WellFormed(r') && (AliasesCover(r) ==> AliasesCover(r'))
    ensures r'.keys.Keys == r.keys.Keys + {name}
    ensures r'.arena[r'.keys[name]] == NewVertex(x, y, z, name)
    ensures forall k :: k in r.keys && k != name ==> r'.keys[k] == r.keys[k] && r'.arena[r'.keys[k]] == r.arena[r.keys[k]]
    ensures |r'.arena| == |r.arena| + 1 && r'.arena[..|r.arena|] == r.arena
  {
    Registry(r.arena + [NewVertex(x, y, z, name)], r.keys[name := |r.arena|])
  }

  /** Removes the entry for `name` only; fails when there is none. Other
      names for the same vertex still resolve to it. */
  function Remove(r: Registry, name: string): (res: Option<Registry>)
    requires WellFormed(r)
    ensures res.Some? <==> name in r.keys
    ensures res.Some? ==> WellFormed(res.value) && (AliasesCover(r) ==> AliasesCover(res.value))
    ensures res.Some? ==> res.value.keys.Keys == r.keys.Keys - {name} && res.value.arena == r.arena
    ensures res.Some? ==> forall k :: k in res.value.keys ==> res.value.keys[k] == r.keys[k]
  {
    if name in r.keys then Some(Registry(r.arena, r.keys - {name})) else None
  }

  /** One step of a merge: the aliases of `n`'s vertex join those of the
      vertex in slot `s`, and `n` is repointed to `s`. */
  function MergeStep(r: Registry, s: nat, n: string): (r': Registry)
    requires WellFormed(r) && s < |r.arena| && n in r.keys
    ensures WellFormed(r') && (AliasesCover(r) ==> AliasesCover(r'))
    ensures r'.keys.Keys == r.keys.Keys && |r'.arena| == |r.arena|
  {
    var v := r.arena[s];
    Registry(r.arena[s := v.(alias := v.alias + r.arena[r.keys[n]].alias)], r.keys[n := s])
  }

  /** Outcome of a merge: the registry reached and the first name found
      missing, if any. */
  datatype Merged = Merged(reg: Registry, missing: Option<string>)

  /** Merges `names` one after another into slot `s`; stops at the first
      name that is not registered, keeping the steps already done. */
  function MergeAll(r: Registry, s: nat, names: seq<string>): (m: Merged)
    requires WellFormed(r) && s < |r.arena|
    ensures WellFormed(m.reg) && (AliasesCover(r) ==> AliasesCover(m.reg))
    ensures m.reg.keys.Keys == r.keys.Keys && |m.reg.arena| == |r.arena|
    ensures m.missing.None? <==> forall i :: 0 <= i < |names| ==> names[i] in r.keys
    ensures m.missing.Some? ==> m.missing.value in names && m.missing.value !in r.keys
    decreases |names|
  {
    if names == [] then Merged(r, None)
    else if names[0] !in r.keys then Merged(r, Some(names[0]))
    else
      var m := MergeAll(MergeStep(r, s, names[0]), s, names[1..]);
      assert forall i :: 0 < i < |names| ==> names[i] == names[1..][i - 1];
      m
  }

  /** Merging from position `i` on: one step for `names[i]`, or a stop
      there when it is not registered. */
  lemma MergeAllFrom(r: Registry, s: nat, names: seq<string>, i: nat)
    requires WellFormed(r) && s < |r.arena| && i < |names|
    ensures MergeAll(r, s, names[i..]) ==
      if names[i] in r.keys then MergeAll(MergeStep(r, s, names[i]), s, names[i + 1..])
      else Merged(r, Some(names[i]))
  {
    assert names[i..][0] == names[i] && names[i..][1..] == names[i + 1..];
  }

  /** `reduce_vertex(name1, *names)`: every name in `names` comes to share
      the vertex of `name1`. */
  function Reduce(r: Registry, name1: string, names: seq<string>): (m: Merged)
    requires WellFormed(r)
    ensures WellFormed(m.reg) && (AliasesCover(r) ==> AliasesCover(m.reg))
    ensures m.reg.keys.Keys == r.keys.Keys && |m.reg.arena| == |r.arena|
    ensures m.missing.None? <==> name1 in r.keys && forall i :: 0 <= i < |names| ==> names[i] in r.keys
    ensures m.missing.Some? ==> m.missing.value !in r.keys
  {
    if name1 !in r.keys then Merged(r, Some(name1)) else MergeAll(r, r.keys[name1], names)
  }

  /** The union of the alias sets of the vertices `names` map to. */
  function AliasesOf(r: Registry, names: seq<string>): set<string>
    requires WellFormed(r) && forall i :: 0 <= i < |names| ==> names[i] in r.keys
    decreases |names|
  {
    if names == [] then {} else r.arena[r.keys[names[0]]].alias + AliasesOf(r, names[1..])
  }

  /** After a successful merge every merged name maps to slot `s`, `s`
      keeps its own names, and every other name is untouched. */
  lemma {:induction false} MergeAllRepoints(r: Registry, s: nat, names: seq<string>)
    requires WellFormed(r) && s < |r.arena| && MergeAll(r, s, names).missing.None?
    ensures var m := MergeAll(r, s, names).reg;
            forall k :: k in r.keys ==> m.keys[k] == if k in names then s else r.keys[k]
    decreases |names|
  {
    if names != [] {
      MergeAllRepoints(MergeStep(r, s, names[0]), s, names[1..]);
      assert forall k :: k in names <==> k == names[0] || k in names[1..];
    }
  }

  /** One merge step does not change what the alias sets of later names add
      to slot `s`: those that already share `s` (or `n`'s vertex) bring
      nothing new, the others are unchanged. */
  lemma {:induction false} AliasesAfterStep(r: Registry, s: nat, n: string, names: seq<string>)
    requires WellFormed(r) && s < |r.arena| && n in r.keys
    requires forall i :: 0 <= i < |names| ==> names[i] in r.keys
    ensures var r1 := MergeStep(r, s, n);
            r1.arena[s].alias + AliasesOf(r1, names) == r1.arena[s].alias + AliasesOf(r, names)
    decreases |names|
  {
    if names != [] {
      AliasesAfterStep(r, s, n, names[1..]);
    }
  }

  /** What the first merge step puts into slot `s`, together with what the
      remaining names then bring, is what all the names bring. */
  lemma AliasesAfterFirst(r: Registry, s: nat, names: seq<string>)
    requires WellFormed(r) && s < |r.arena| && names != []
    requires forall i :: 0 <= i < |names| ==> names[i] in r.keys
    ensures var r1 := MergeStep(r, s, names[0]);
      r1.arena[s].alias + AliasesOf(r1, names[1..]) == r.arena[s].alias + AliasesOf(r, names)
  {
    AliasesAfterStep(r, s, names[0], names[1..]);
  }

  /** A successful merge changes only slot `s`, whose alias set becomes its
      old one together with the old alias sets of all merged names. */
  lemma {:induction false} MergeAllUnionsAliases(r: Registry, s: nat, names: seq<string>)
    requires WellFormed(r) && s < |r.arena| && MergeAll(r, s, names).missing.None?
    ensures forall i :: 0 <= i < |names| ==> names[i] in r.keys
    ensures MergeAll(r, s, names).reg.arena
         == r.arena[s := r.arena[s].(alias := r.arena[s].alias + AliasesOf(r, names))]
    decreases |names|
  {
    if names == [] {
      assert r.arena[s].(alias := r.arena[s].alias + {}) == r.arena[s];
    } else {
      var r1 := MergeStep(r, s, names[0]);
      assert MergeAll(r, s, names) == MergeAll(r1, s, names[1..]);
      MergeAllUnionsAliases(r1, s, names[1..]);
      AliasesAfterFirst(r, s, names);
    }
  }

  /** `reduce_vertex(name1, *names)` on success: every name in `names` maps
      to `name1`'s vertex, no other name moves, no other vertex changes, and
      that vertex's aliases grow by the aliases of every merged vertex. */
  lemma ReduceMerges(r: Registry, name1: string, names: seq<string>)
    requires WellFormed(r) && Reduce(r, name1, names).missing.None?
    ensures name1 in r.keys
    ensures var m, s := Reduce(r, name1, names).reg, r.keys[name1];
            && m.keys[name1] == s
            && (forall i :: 0 <= i < |names| ==> m.keys[names[i]] == s)
            && (forall k :: k in r.keys && k !in names ==> m.keys[k] == r.keys[k])
            && m.arena == r.arena[s := r.arena[s].(alias := r.arena[s].alias + AliasesOf(r, names))]
  {
    var s := r.keys[name1];
    MergeAllRepoints(r, s, names);
    MergeAllUnionsAliases(r, s, names);
  }

  /** Merging names that already all share slot `s` changes nothing. */
  lemma {:induction false} MergeAllSettled(r: Registry, s: nat, names: seq<string>)
    requires WellFormed(r) && s < |r.arena|
    requires forall i :: 0 <= i < |names| ==> names[i] in r.keys && r.keys[names[i]] == s
    ensures MergeAll(r, s, names) == Merged(r, None)
    decreases |names|
  {
    if names != [] {
      var v := r.arena[s];
      assert v.(alias := v.alias + v.alias) == v;
      assert r.arena[s := v] == r.arena;
      assert r.keys[names[0] := s] == r.keys;
      MergeAllSettled(r, s, names[1..]);
    }
  }

  /** A name already on slot `s` is still on `s` after merging into `s`. */
  lemma {:induction false} MergeAllKeepsOnSlot(r: Registry, s: nat, names: seq<string>, k: string)
    requires WellFormed(r) && s < |r.arena| && k in r.keys && r.keys[k] == s
    ensures MergeAll(r, s, names).reg.keys[k] == s
    decreases |names|
  {
    if names != [] && names[0] in r.keys {
      MergeAllKeepsOnSlot(MergeStep(r, s, names[0]), s, names[1..], k);
    }
  }

  /** A merge whose first name is registered is that name's step followed
      by the merge of the rest. */
  lemma MergeAllFirst(r: Registry, s: nat, names: seq<string>)
    requires WellFormed(r) && s < |r.arena| && names != [] && names[0] in r.keys
    ensures MergeAll(r, s, names) == MergeAll(MergeStep(r, s, names[0]), s, names[1..])
  {
  }

  /** Merging a name already on slot `s` changes nothing. */
  lemma MergeStepSettled(r: Registry, s: nat, n: string)
    requires WellFormed(r) && s < |r.arena| && n in r.keys && r.keys[n] == s
    ensures MergeStep(r, s, n) == r
  {
    var v := r.arena[s];
    assert v.(alias := v.alias + v.alias) == v;
    assert r.arena[s := v] == r.arena;
    assert r.keys[n := s] == r.keys;
  }

  /** A merge that stops at `names[i]`, the first name not registered, ends
      in the state the merge of `names[..i]` reaches. */
  lemma {:induction false} MergeAllStopsAtFirstMissing(r: Registry, s: nat, names: seq<string>, i: nat)
    requires WellFormed(r) && s < |r.arena| && i < |names| && names[i] !in r.keys
    requires forall j :: 0 <= j < i ==> names[j] in r.keys
    ensures MergeAll(r, s, names) == Merged(MergeAll(r, s, names[..i]).reg, Some(names[i]))
    decreases i
  {
    if i == 0 {
      assert names[..0] == [];
    } else {
      assert names[0] in r.keys;
      var r1 := MergeStep(r, s, names[0]);
      var rest, pre := names[1..], names[..i];
      assert rest[i - 1] == names[i];
      assert forall j :: 0 <= j < i - 1 ==> rest[j] in r1.keys by {
        assert forall j :: 0 <= j < i - 1 ==> rest[j] == names[j + 1];
      }
      MergeAllStopsAtFirstMissing(r1, s, rest, i - 1);
      MergeAllFirst(r, s, names);
      assert pre[0] == names[0] && pre[1..] == rest[..i - 1];
      MergeAllFirst(r, s, pre);
    }
  }

  /** After a merge, every name up to the first one not registered is on
      slot `s`: the merges done before a `KeyError` are kept. */
  lemma {:induction false} MergeAllPrefixOnSlot(r: Registry, s: nat, names: seq<string>, i: nat)
    requires WellFormed(r) && s < |r.arena| && i < |names|
    requires forall j :: 0 <= j <= i ==> names[j] in r.keys
    ensures MergeAll(r, s, names).reg.keys[names[i]] == s
    decreases i
  {
    var r1 := MergeStep(r, s, names[0]);
    MergeAllFirst(r, s, names);
    if i == 0 {
      MergeAllKeepsOnSlot(r1, s, names[1..], names[0]);
    } else {
      assert forall j :: 0 <= j <= i - 1 ==> names[1..][j] == names[j + 1];
      MergeAllPrefixOnSlot(r1, s, names[1..], i - 1);
    }
  }

  /** Repeating a merge into slot `s` changes nothing, whether the first
      one completed or stopped at a missing name: the names it merged are
      already on `s`, and it stops at the same name again. */
  lemma {:induction false} MergeAllRepeat(r: Registry, s: nat, names: seq<string>)
    requires WellFormed(r) && s < |r.arena|
    ensures MergeAll(MergeAll(r, s, names).reg, s, names) == MergeAll(r, s, names)
    decreases |names|
  {
    if names != [] && names[0] in r.keys {
      var r1 := MergeStep(r, s, names[0]);
      var m := MergeAll(r1, s, names[1..]);
      MergeAllFirst(r, s, names);
      MergeAllRepeat(r1, s, names[1..]);
      MergeAllKeepsOnSlot(r1, s, names[1..], names[0]);
      MergeStepSettled(m.reg, s, names[0]);
      MergeAllFirst(m.reg, s, names);
    }
  }

  /** Repeating a `reduce_vertex` call changes nothing, whether the first
      call succeeded or failed part-way with a `KeyError`. */
  lemma ReduceIdempotent(r: Registry, name1: string, names: seq<string>)
    requires WellFormed(r)
    ensures Reduce(Reduce(r, name1, names).reg, name1, names) == Reduce(r, name1, names)
  {
    if name1 in r.keys {
      var s := r.keys[name1];
      MergeAllKeepsOnSlot(r, s, names, name1);
      MergeAllRepeat(r, s, names);
    }
  }

  /** The index of each vertex named in `names`, in order (the resolution
      done when a block or face is formatted); fails at a name that is not
      registered. */
  function Resolve(r: Registry, names: seq<string>): (res: Result<seq<Option<nat>>, string>)
    requires WellFormed(r)
    ensures res.Ok? <==> forall i :: 0 <= i < |names| ==> names[i] in r.keys
    ensures res.Ok? ==> |res.value| == |names|
    ensures res.Ok? ==> forall i :: 0 <= i < |names| ==> res.value[i] == r.arena[r.keys[names[i]]].index
    ensures res.Err? ==> res.error in names && res.error !in r.keys
    decreases |names|
  {
    if names == [] then Ok([])
    else if names[0] !in r.keys then Err(names[0])
    else
      assert forall i :: 0 < i < |names| ==> names[i] == names[1..][i - 1];
      match Resolve(r, names[1..])
      case Ok(rest) => Ok([r.arena[r.keys[names[0]]].index] + rest)
      case Err(e) => Err(e)
  }
}

=== FILE: render.dfy ===
/** What the blocks and boundary sections print, as index lists rather than
    text: each vertex name becomes the index of the vertex it resolves to
    (`None` while that vertex has no index). */
module Render {
  import opened Wrappers
  import opened Registry
  import opened Topology

  /** One line of the blocks section. */
  datatype BlockOut = BlockOut(indices: seq<Option<nat>>, cells: (int, int, int), name: string)

  /** One face line of a boundary patch. */
  datatype FaceOut = FaceOut(indices: seq<Option<nat>>, name: string)

  /** The state of a boundary patch when it is formatted. */
  datatype Patch = Patch(name: string, kind: string, faces: seq<Face>)

  /** One patch of the boundary section. */
  datatype PatchOut = PatchOut(name: string, kind: string, faces: seq<FaceOut>)

  /** `Face.format`: the face's vertex indices, in the order of its names. */
  function RenderFace(r: Registry, f: Face): (res: Result<FaceOut, string>)
    requires WellFormed(r)
    ensures res.Ok? <==> forall i :: 0 <= i < |f.vnames| ==> f.vnames[i] in r.keys
    ensures res.Ok? ==> res.value.name == f.name && |res.value.indices| == |f.vnames|
    ensures res.Ok? ==> forall i :: 0 <= i < |f.vnames| ==> res.value.indices[i] == r.arena[r.keys[f.vnames[i]]].index
  {
    match Resolve(r, f.vnames)
    case Ok(ix) => Ok(FaceOut(ix, f.name))
    case Err(n) => Err(n)
  }

  /** `HexBlock.format`: the block's vertex indices, in the order of its
      names, with its cell counts and name. */
  function RenderBlock(r: Registry, b: HexBlock): (res: Result<BlockOut, string>)
    requires WellFormed(r)
    ensures res.Ok? <==> forall i :: 0 <= i < |b.vnames| ==> b.vnames[i] in r.keys
    ensures res.Ok? ==> res.value.cells == b.cells && res.value.name == b.name
    ensures res.Ok? ==> |res.value.indices| == |b.vnames|
    ensures res.Ok? ==> forall i :: 0 <= i < |b.vnames| ==> res.value.indices[i] == r.arena[r.keys[b.vnames[i]]].index
  {
    match Resolve(r, b.vnames)
    case Ok(ix) => Ok(BlockOut(ix, b.cells, b.name))
    case Err(n) => Err(n)
  }

  /** The faces of one patch, formatted in the order they were added. */
  function RenderFaces(r: Registry, faces: seq<Face>): (res: Result<seq<FaceOut>, string>)
    requires WellFormed(r)
    ensures res.Ok? <==> forall i :: 0 <= i < |faces| ==> RenderFace(r, faces[i]).Ok?
    ensures res.Ok? ==> |res.value| == |faces| && forall i :: 0 <= i < |faces| ==> RenderFace(r, faces[i]) == Ok(res.value[i])
    decreases |faces|
  {
    if faces == [] then Ok([])
    else
      assert forall i :: 0 < i < |faces| ==> faces[i] == faces[1..][i - 1];
      match RenderFace(r, faces[0])
      case Err(n) => Err(n)
      case Ok(f) =>
        match RenderFaces(r, faces[1..])
        case Err(n) => Err(n)
        case Ok(rest) => Ok([f] + rest)
  }

  /** `format_blocks_section`: one line per block, in the given order. */
  function RenderBlocks(r: Registry, blocks: seq<HexBlock>): (res: Result<seq<BlockOut>, string>)
    requires WellFormed(r)
    ensures res.Ok? <==> forall i :: 0 <= i < |blocks| ==> RenderBlock(r, blocks[i]).Ok?
    ensures res.Ok? ==> |res.value| == |blocks| && forall i :: 0 <= i < |blocks| ==> RenderBlock(r, blocks[i]) == Ok(res.value[i])
    decreases |blocks|
  {
    if blocks == [] then Ok([])
    else
      assert forall i :: 0 < i < |blocks| ==> blocks[i] == blocks[1..][i - 1];
      match RenderBlock(r, blocks[0])
      case Err(n) => Err(n)
      case Ok(b) =>
        match RenderBlocks(r, blocks[1..])
        case Err(n) => Err(n)
        case Ok(rest) => Ok([b] + rest)
  }

  /** `format_boundary_section`: one entry per patch, in the given order,
      each with its faces in the order they were added. */
  function RenderPatches(r: Registry, patches: seq<Patch>): (res: Result<seq<PatchOut>, string>)
    requires WellFormed(r)
    ensures res.Ok? <==> forall i :: 0 <= i < |patches| ==> RenderFaces(r, patches[i].faces).Ok?
    ensures res.Ok? ==> |res.value| == |patches|
    ensures res.Ok? ==> forall i :: 0 <= i < |patches| ==>
      res.value[i] == PatchOut(patches[i].name, patches[i].kind, RenderFaces(r, patches[i].faces).value)
    decreases |patches|
  {
    if patches == [] then Ok([])
    else
      assert forall i :: 0 < i < |patches| ==> patches[i] == patches[1..][i - 1];
      var p := patches[0];
      match RenderFaces(r, p.faces)
      case Err(n) => Err(n)
      case Ok(fs) =>
        match RenderPatches(r, patches[1..])
        case Err(n) => Err(n)
        case Ok(rest) => Ok([PatchOut(p.name, p.kind, fs)] + rest)
  }

  /** Adding a face to a patch appends exactly that face's line to the
      patch's output and leaves the earlier lines as they were. */
  lemma {:induction false} AddedFaceRendersLast(r: Registry, faces: seq<Face>, f: Face)
    requires WellFormed(r)
    ensures RenderFaces(r, faces + [f]).Ok? <==> RenderFaces(r, faces).Ok? && RenderFace(r, f).Ok?
    ensures RenderFaces(r, faces + [f]).Ok? ==>
      RenderFaces(r, faces + [f]).value == RenderFaces(r, faces).value + [RenderFace(r, f).value]
  {
    var all := faces + [f];
    assert forall i :: 0 <= i < |faces| ==> all[i] == faces[i];
    assert all[|faces|] == f;
    if RenderFaces(r, all).Ok? {
      var out, before := RenderFaces(r, all).value, RenderFaces(r, faces).value;
      assert forall i :: 0 <= i < |faces| ==> RenderFace(r, faces[i]) == Ok(out[i]);
      assert out == before + [RenderFace(r, f).value];
    }
  }
}

=== FILE: sorting.dfy ===
/** Sorting arena slots by the position of the vertex they hold. The order
    is the corrected key `KeyLess`; slots whose vertices sit at the same
    point keep their input order. */
module Sorting {
  import opened Wrappers
  import opened Vertices

  /** No element occurs twice in `s`. */
  predicate Distinct<T(==)>(s: seq<T>) {
    forall i, j :: 0 <= i < j < |s| ==> s[i] != s[j]
  }

  /** Every slot in `slots` refers to a vertex of `arena`. */
  predicate InArena(arena: seq<Vertex>, slots: seq<nat>) {
    forall i :: 0 <= i < |slots| ==> slots[i] < |arena|
  }

  /** No later slot holds a vertex strictly before an earlier one. */
  ghost predicate SortedByKey(arena: seq<Vertex>, slots: seq<nat>)
    requires InArena(arena, slots)
  {
    forall i, j :: 0 <= i < j < |slots| ==> !KeyLess(arena[slots[j]], arena[slots[i]])
  }

  /** Inserts `s` into `sorted` in front of the first slot whose vertex is
      strictly greater, so after every equal one. */
  function InsertSlot(arena: seq<Vertex>, s: nat, sorted: seq<nat>): (r: seq<nat>)
    requires s < |arena| && InArena(arena, sorted)
    ensures InArena(arena, r)
    ensures multiset(r) == multiset(sorted) + multiset{s}
    ensures forall t :: t in r <==> t == s || t in sorted
  {
    if sorted == [] then [s]
    else if KeyLess(arena[s], arena[sorted[0]]) then [s] + sorted
    else
      assert sorted == [sorted[0]] + sorted[1..];
      [sorted[0]] + InsertSlot(arena, s, sorted[1..])
  }

  /** Inserting a new slot into a sequence without repeats makes none. */
  lemma {:induction false} InsertSlotDistinct(arena: seq<Vertex>, s: nat, sorted: seq<nat>)
    requires s < |arena| && InArena(arena, sorted) && Distinct(sorted) && s !in sorted
    ensures Distinct(InsertSlot(arena, s, sorted))
  {
    if sorted != [] && !KeyLess(arena[s], arena[sorted[0]]) {
      assert sorted == [sorted[0]] + sorted[1..];
      InsertSlotDistinct(arena, s, sorted[1..]);
      assert sorted[0] !in InsertSlot(arena, s, sorted[1..]);
    }
  }

  /** Inserting into a sorted sequence keeps it sorted. */
  lemma {:induction false} InsertSlotSorted(arena: seq<Vertex>, s: nat, sorted: seq<nat>)
    requires s < |arena| && InArena(arena, sorted) && SortedByKey(arena, sorted)
    ensures SortedByKey(arena, InsertSlot(arena, s, sorted))
  {
    if sorted != [] && !KeyLess(arena[s], arena[sorted[0]]) {
      var rest := InsertSlot(arena, s, sorted[1..]);
      InsertSlotSorted(arena, s, sorted[1..]);
      var r := [sorted[0]] + rest;
      forall j | 0 < j < |r|
        ensures !KeyLess(arena[r[j]], arena[r[0]])
      {
        assert r[j] in rest;
        if r[j] != s {
          var k :| 0 <= k < |sorted[1..]| && sorted[1..][k] == r[j];
          assert sorted[k + 1] == r[j];
        }
      }
    }
  }

  /** Insertion sort of `slots` by vertex position: the result is sorted and
      a permutation of the input. */
  function SortSlots(arena: seq<Vertex>, slots: seq<nat>): (r: seq<nat>)
    requires InArena(arena, slots)
    ensures InArena(arena, r)
    ensures SortedByKey(arena, r)
    ensures multiset(r) == multiset(slots)
    ensures forall t :: t in r <==> t in slots
    ensures Distinct(slots) ==> Distinct(r)
    decreases |slots|
  {
    if slots == [] then []
    else
      var init, last := slots[..|slots| - 1], slots[|slots| - 1];
      assert slots == init + [last];
      InsertSlotSorted(arena, last, SortSlots(arena, init));
      if Distinct(slots) then
        assert last !in init;
        InsertSlotDistinct(arena, last, SortSlots(arena, init));
        InsertSlot(arena, last, SortSlots(arena, init))
      else InsertSlot(arena, last, SortSlots(arena, init))
  }
}

=== FILE: topology.dfy ===
/** Faces, hexahedral blocks and boundary patches. Blocks and faces refer to
    vertices by name only. */
module Topology {
  import opened Wrappers

  /** Four vertex names, in the order that makes the face normal point out
      of its block, and a name. */
  datatype Face = Face(vnames: seq<string>, name: string)

  /** A hexahedron: its corner vertex names in the OpenFOAM corner order,
      the number of cells along each axis, and a name. */
  datatype HexBlock = HexBlock(vnames: seq<string>, cells: (int, int, int), name: string)

  /** How a caller names a side of a block: a keyword, or a number as used
      to index a Python list (so -6 to -1 count from the end). */
  datatype Side = Keyword(word: string) | Number(n: int)

  datatype FaceError = UnknownKeyword(word: string) | SideOutOfRange(n: int) | MissingCorner(count: nat)

  /** Side keywords: the compass letter, the axis with its sign, and the
      outward normal written as three signed digits. */
  const KeywordSide: map<string, nat> := map[
    "w" := 0, "xm" := 0, "-100" := 0,
    "e" := 1, "xp" := 1, "100" := 1,
    "s" := 2, "ym" := 2, "0-10" := 2,
    "n" := 3, "yp" := 3, "010" := 3,
    "b" := 4, "zm" := 4, "00-1" := 4,
    "t" := 5, "zp" := 5, "001" := 5]

  /** The corner positions of side `k`, in face order. */
  function SideCorners(k: nat): (r: seq<nat>)
    requires k < 6
    ensures |r| == 4 && forall i :: 0 <= i < 4 ==> r[i] < 8
  {
    match k
    case 0 => [0, 4, 7, 3]
    case 1 => [1, 2, 6, 5]
    case 2 => [0, 1, 5, 4]
    case 3 => [2, 3, 7, 6]
    case 4 => [0, 3, 2, 1]
    case _ => [4, 5, 6, 7]
  }

  /** The suffix of each side's default face name, as written: side 1 (east)
      has the suffix of side 3 (north). */
  const DefaultSuffixAsWritten: seq<string> := ["-w", "-n", "-s", "-n", "-b", "-t"]

  /** The suffix of each side's default face name, corrected: "-" and the
      side's compass letter. */
  const DefaultSuffix: seq<string> := ["-w", "-e", "-s", "-n", "-b", "-t"]

  /** The three keywords of each side. */
  const SideKeywords: seq<seq<string>> := [
    ["w", "xm", "-100"],
    ["e", "xp", "100"],
    ["s", "ym", "0-10"],
    ["n", "yp", "010"],
    ["b", "zm", "00-1"],
    ["t", "zp", "001"]]

  /** The default name of the face of `b` on side `k`, as written. */
  function DefaultNameAsWritten(b: HexBlock, k: nat): (n: string)
    requires k < 6
    ensures n == DefaultName(b, if k == 1 then 3 else k)
  {
    "f-" + b.name + DefaultSuffixAsWritten[k]
  }

  /** The default name of the face of `b` on side `k`: "f-", the block name,
      "-" and the side's compass letter. */
  function DefaultName(b: HexBlock, k: nat): (n: string)
    requires k < 6
    ensures n == "f-" + b.name + "-" + SideKeywords[k][0]
  {
    "f-" + b.name + DefaultSuffix[k]
  }

  /** The side a selector names. */
  function SideNumber(side: Side): (r: Result<nat, FaceError>)
    ensures r.Ok? ==> r.value < 6
    ensures side.Keyword? ==> (r.Ok? <==> side.word in KeywordSide)
    ensures side.Number? ==> (r.Ok? <==> -6 <= side.n < 6)
    ensures side.Number? && r.Ok? ==> r.value % 6 == side.n % 6
  {
    match side
    case Keyword(w) => if w in KeywordSide then Ok(KeywordSide[w]) else Err(UnknownKeyword(w))
    case Number(n) =>
      if 0 <= n < 6 then Ok(n)
      else if -6 <= n < 0 then Ok(n + 6)
      else Err(SideOutOfRange(n))
  }

  /** `HexBlock.face`: the face of block `b` on the given side, named `name`
      or, when no name is given, "f-" + the block name + the side's default
      suffix. */
  function HexFace(b: HexBlock, side: Side, name: Option<string>): (r: Result<Face, FaceError>)
    ensures r.Ok? <==> SideNumber(side).Ok? && forall i :: 0 <= i < 4 ==> SideCorners(SideNumber(side).value)[i] < |b.vnames|
    ensures r.Ok? ==> var k := SideNumber(side).value;
      && |r.value.vnames| == 4
      && (forall i :: 0 <= i < 4 ==> r.value.vnames[i] == b.vnames[SideCorners(k)[i]])
      && r.value.name == (if name.Some? then name.value else DefaultNameAsWritten(b, k))
  {
    match SideNumber(side)
    case Err(e) => Err(e)
    case Ok(k) =>
      var corners := SideCorners(k);
      if forall i :: 0 <= i < 4 ==> corners[i] < |b.vnames| then
        var vnames := [b.vnames[corners[0]], b.vnames[corners[1]], b.vnames[corners[2]], b.vnames[corners[3]]];
        Ok(Face(vnames, if name.Some? then name.value else DefaultNameAsWritten(b, k)))
      else Err(MissingCorner(|b.vnames|))
  }

  /** Each keyword of side `j` is in the keyword table and names side `j`. */
  lemma SideKeywordsInTable(j: nat)
    requires j < 6
    ensures forall w :: w in SideKeywords[j] ==> w in KeywordSide && KeywordSide[w] == j
  {
    match j
    case 0 =>
    case 1 =>
    case 2 =>
    case 3 =>
    case 4 =>
    case _ =>
  }

  /** Every entry of the keyword table is one of the three keywords of the
      side it names. */
  lemma TableKeywordsInGroups()
    ensures forall w :: w in KeywordSide ==> w in SideKeywords[KeywordSide[w]]
  {
  }

  /** The three keywords of a side and its number select the same face. */
  lemma KeywordsAgree(b: HexBlock, k: nat, name: Option<string>)
    requires k < 6
    ensures forall w :: w in SideKeywords[k] ==> HexFace(b, Keyword(w), name) == HexFace(b, Number(k), name)
  {
    SideKeywordsInTable(k);
  }

  /** A keyword outside the six groups, or a number outside -6..5, selects
      no face. */
  lemma UnknownSidesFail(b: HexBlock, side: Side, name: Option<string>)
    requires side.Keyword? ==> forall j :: 0 <= j < 6 ==> side.word !in SideKeywords[j]
    requires side.Number? ==> side.n < -6 || 6 <= side.n
    ensures HexFace(b, side, name).Err?
  {
    TableKeywordsInGroups();
  }

  /** As written, the east and north faces of every block get the same
      default name, so `face` gives both faces of a complete block one
      name. */
  lemma EastAndNorthDefaultNamesCollide(b: HexBlock)
    ensures DefaultNameAsWritten(b, 1) == DefaultNameAsWritten(b, 3)
    ensures DefaultNameAsWritten(b, 1) != DefaultName(b, 1)
    ensures |b.vnames| == 8 ==>
      && HexFace(b, Keyword("e"), None).Ok? && HexFace(b, Keyword("n"), None).Ok?
      && HexFace(b, Keyword("e"), None).value.name == HexFace(b, Keyword("n"), None).value.name
  {
    var p := 2 + |b.name|;
    assert DefaultNameAsWritten(b, 1)[p..] != DefaultName(b, 1)[p..];
  }

  /** With the corrected suffixes, the six faces of a block get six
      different default names. */
  lemma {:induction false} DefaultNamesDistinct(b: HexBlock, k: nat, j: nat)
    requires k < 6 && j < 6 && k != j
    ensures DefaultName(b, k) != DefaultName(b, j)
  {
    var p := 2 + |b.name|;
    assert DefaultName(b, k)[p..] == DefaultSuffix[k];
    assert DefaultName(b, j)[p..] == DefaultSuffix[j];
    assert DefaultSuffix[k][1] != DefaultSuffix[j][1] by {
      assert forall i :: 0 <= i < 6 ==> DefaultSuffix[i][1] == SideKeywords[i][0][0];
    }
  }

  /** Corner `c` of the unit hexahedron in the OpenFOAM corner numbering. */
  function CornerPoint(c: nat): (int, int, int)
    requires c < 8
  {
    match c
    case 0 => (0, 0, 0)
    case 1 => (1, 0, 0)
    case 2 => (1, 1, 0)
    case 3 => (0, 1, 0)
    case 4 => (0, 0, 1)
    case 5 => (1, 0, 1)
    case 6 => (1, 1, 1)
    case _ => (0, 1, 1)
  }

  /** Outward unit normal of side `k`. */
  function OutwardNormal(k: nat): (int, int, int)
    requires k < 6
  {
    match k
    case 0 => (-1, 0, 0)
    case 1 => (1, 0, 0)
    case 2 => (0, -1, 0)
    case 3 => (0, 1, 0)
    case 4 => (0, 0, -1)
    case _ => (0, 0, 1)
  }

  function Dot(p: (int, int, int), q: (int, int, int)): int {
    p.0 * q.0 + p.1 * q.1 + p.2 * q.2
  }

  function Minus(p: (int, int, int), q: (int, int, int)): (int, int, int) {
    (p.0 - q.0, p.1 - q.1, p.2 - q.2)
  }

  /** A coordinate difference between two corners of the unit cube. */
  predicate Unit(a: int) {
    -1 <= a <= 1
  }

  /** The product of two such differences, by cases. */
  function Mul(a: int, b: int): (r: int)
    requires Unit(a) && Unit(b)
    ensures r == a * b
  {
    if a == 0 || b == 0 then 0 else if a == b then 1 else -1
  }

  /** The cross product of two edge vectors of the unit cube. */
  function Cross(p: (int, int, int), q: (int, int, int)): (int, int, int)
    requires Unit(p.0) && Unit(p.1) && Unit(p.2) && Unit(q.0) && Unit(q.1) && Unit(q.2)
  {
    (Mul(p.1, q.2) - Mul(p.2, q.1), Mul(p.2, q.0) - Mul(p.0, q.2), Mul(p.0, q.1) - Mul(p.1, q.0))
  }

  function Abs(a: int): nat {
    if a < 0 then -a else a
  }

  /** Two corners of the unit cube share an edge: they differ in exactly one
      coordinate. */
  predicate Adjacent(c: nat, d: nat)
    requires c < 8 && d < 8
  {
    var p, q := CornerPoint(c), CornerPoint(d);
    Abs(p.0 - q.0) + Abs(p.1 - q.1) + Abs(p.2 - q.2) == 1
  }

  /** Corner `c` lies on the plane of side `k` exactly when the side's
      table row lists it. */
  lemma CornerOnPlane(k: nat, c: nat)
    requires k < 6 && c < 8
    ensures c in SideCorners(k) <==> Dot(CornerPoint(c), OutwardNormal(k)) == k % 2
  {
    match k
    case 0 =>
    case 1 =>
    case 2 =>
    case 3 =>
    case 4 =>
    case _ =>
  }

  /** Each side lists exactly the four corners on its plane. */
  lemma SideCornersOnPlane(k: nat)
    requires k < 6
    ensures forall c :: 0 <= c < 8 ==>
      (c in SideCorners(k) <==> Dot(CornerPoint(c), OutwardNormal(k)) == k % 2)
  {
    forall c | 0 <= c < 8
      ensures c in SideCorners(k) <==> Dot(CornerPoint(c), OutwardNormal(k)) == k % 2
    {
      CornerOnPlane(k, c);
    }
  }

  /** Each listed corner shares an edge with the next, so the four corners
      go once around the face. */
  lemma SideCornersFormCycle(k: nat)
    requires k < 6
    ensures var p := SideCorners(k);
      Adjacent(p[0], p[1]) && Adjacent(p[1], p[2]) && Adjacent(p[2], p[3]) && Adjacent(p[3], p[0])
  {
  }

  /** The first corner's two edges, taken in table order, span the outward
      normal (right-hand rule). */
  lemma SideCornersFaceOutward(k: nat)
    requires k < 6
    ensures var p := SideCorners(k);
      Cross(Minus(CornerPoint(p[1]), CornerPoint(p[0])), Minus(CornerPoint(p[3]), CornerPoint(p[0])))
        == OutwardNormal(k)
  {
    var p := SideCorners(k);
    var a, b, c := CornerPoint(p[0]), CornerPoint(p[1]), CornerPoint(p[3]);
    match k
    case 0 => assert (a, b, c) == ((0, 0, 0), (0, 0, 1), (0, 1, 0));
    case 1 => assert (a, b, c) == ((1, 0, 0), (1, 1, 0), (1, 0, 1));
    case 2 => assert (a, b, c) == ((0, 0, 0), (1, 0, 0), (0, 0, 1));
    case 3 => assert (a, b, c) == ((1, 1, 0), (0, 1, 0), (1, 1, 1));
    case 4 => assert (a, b, c) == ((0, 0, 0), (0, 1, 0), (1, 0, 0));
    case _ => assert (a, b, c) == ((0, 0, 1), (1, 0, 1), (0, 1, 1));
  }

  /** The east face order (1 2 5 6) stated in the documentation of `face`
      is not a cycle around the face: corners 2 and 5 share no edge. */
  lemma DocumentedEastOrderIsNotAQuad()
    ensures !Adjacent(2, 5) && Adjacent(6, 5)
  {
  }

  /** A boundary patch: a type keyword (wall, patch, empty, ...), a name and
      the faces it covers, in the order they were added. */
  class Boundary {
    const kind: string
    const name: string
    var faces: seq<Face>

    constructor (kind: string, name: string, faces: seq<Face>)
      ensures this.kind == kind && this.name == name && this.faces == faces
    {
      this.kind := kind;
      this.name := name;
      this.faces := faces;
    }

    /** `add_face`: appends `f` after the faces already there. */
    method AddFace(f: Face)
      modifies this`faces
      ensures faces == old(faces) + [f]
    {
      faces := faces + [f];
    }
  }
}

=== FILE: units.dfy ===
/** The length units accepted by `set_metric` and their factors to metres. */
module Units {
  import opened Wrappers

  /** Unit symbol to the factor that converts it to metres. */
  const MetricTable: map<string, real> := map[
    "km" := 1000.0,
    "m" := 1.0,
    "cm" := 0.01,
    "mm" := 0.001,
    "um" := 1.0e-6,
    "nm" := 1.0e-9,
    "A" := 1.0e-10,
    "Angstrom" := 1.0e-10]

  /** The eight accepted symbols. */
  const MetricSymbols: set<string> := {"km", "m", "cm", "mm", "um", "nm", "A", "Angstrom"}

  /** The factor of `metric`, or nothing for an unknown symbol. */
  function MetricFactor(metric: string): (r: Option<real>)
    ensures r.Some? <==> metric in MetricSymbols
    ensures r.Some? ==> 0.0 < r.value <= 1000.0
  {
    if metric in MetricTable then Some(MetricTable[metric]) else None
  }

  /** The factors agree with one another: each unit is the stated multiple
      of the next smaller one, and "A" and "Angstrom" are the same unit. */
  lemma MetricFactorsConsistent()
    ensures MetricFactor("km") == Some(1000.0)
    ensures MetricFactor("m") == Some(1.0)
    ensures MetricFactor("km").value == 1000.0 * MetricFactor("m").value
    ensures MetricFactor("m").value == 100.0 * MetricFactor("cm").value
    ensures MetricFactor("cm").value == 10.0 * MetricFactor("mm").value
    ensures MetricFactor("mm").value == 1000.0 * MetricFactor("um").value
    ensures MetricFactor("um").value == 1000.0 * MetricFactor("nm").value
    ensures MetricFactor("nm").value == 10.0 * MetricFactor("A").value
    ensures MetricFactor("A") == MetricFactor("Angstrom")
  {
  }
}

=== FILE: vertices.dfy ===
/** Named mesh vertices and the order in which they are numbered. */
module Vertices {
  import opened Wrappers

  /** A named point. `name` is the name it was created under, `alias` every
      name merged into it, `index` its number in the output (unset until the
      numbering pass). */
  datatype Vertex = Vertex(x: real, y: real, z: real, name: string, alias: set<string>, index: Option<nat>)

  /** A vertex as created under `name`: its only alias is its own name and it
      has no index yet. */
  function NewVertex(x: real, y: real, z: real, name: string): (v: Vertex)
    ensures (v.x, v.y, v.z) == (x, y, z) && v.name == name
    ensures v.alias == {name} && v.index.None?
  {
    Vertex(x, y, z, name, {name}, None)
  }

  /** The intended numbering order: lexicographic on (z, y, x). */
  function KeyLess(v: Vertex, w: Vertex): (r: bool)
    ensures r ==> v.z <= w.z && (v.x, v.y, v.z) != (w.x, w.y, w.z)
  {
    v.z < w.z || (v.z == w.z && (v.y < w.y || (v.y == w.y && v.x < w.x)))
  }

  /** The less-than comparison as written: the left key (z, y, x) is compared
      against the right key (z, y, z). */
  function LessAsWritten(v: Vertex, w: Vertex): (r: bool)
    ensures r <==> KeyLess(v, w.(x := w.z))
    ensures w.x == w.z ==> (r <==> KeyLess(v, w))
  {
    v.z < w.z || (v.z == w.z && (v.y < w.y || (v.y == w.y && v.x < w.z)))
  }

  /** The equality comparison as written, with the same (z, y, z) right key. */
  function EqualAsWritten(v: Vertex, w: Vertex): (r: bool)
    ensures r <==> !KeyLess(v, w.(x := w.z)) && !KeyLess(w.(x := w.z), v)
    ensures w.x == w.z ==> (r <==> (v.x, v.y, v.z) == (w.x, w.y, w.z))
  {
    v.z == w.z && v.y == w.y && v.x == w.z
  }

  /** For any right vertex whose x differs from its z, some left vertex is
      ordered differently as written than by `KeyLess`: one on the same z
      and y line, with x halfway between the right vertex's x and z. */
  lemma LessAsWrittenDisagrees(w: Vertex)
    requires w.x != w.z
    ensures var v := w.(x := (w.x + w.z) / 2.0);
      LessAsWritten(v, w) != KeyLess(v, w)
  {
  }

  /** `KeyLess` is a strict total order on positions: irreflexive,
      asymmetric, transitive, and two vertices it cannot tell apart sit at the
      same point. */
  lemma KeyLessIsStrictOrder(u: Vertex, v: Vertex, w: Vertex)
    ensures !KeyLess(v, v)
    ensures KeyLess(u, v) ==> !KeyLess(v, u)
    ensures KeyLess(u, v) && KeyLess(v, w) ==> KeyLess(u, w)
    ensures !KeyLess(u, v) && !KeyLess(v, u) <==> (u.x, u.y, u.z) == (v.x, v.y, v.z)
  {
  }

  /** As written, a vertex at (0, 0, 1) is less than itself and not equal to
      itself; two vertices on the same z and y line are each less than the
      other, where `KeyLess` orders them one way only; and two vertices at
      the same point (0, 0, 1) are each less than the other, where `KeyLess`
      orders neither before the other. */
  lemma AsWrittenComparisonIsNotAnOrder()
    ensures var v := NewVertex(0.0, 0.0, 1.0, "v");
            LessAsWritten(v, v) && !EqualAsWritten(v, v) && !KeyLess(v, v)
    ensures var v, w := NewVertex(0.0, 0.0, 1.0, "v"), NewVertex(0.5, 0.0, 1.0, "w");
            LessAsWritten(v, w) && LessAsWritten(w, v) && KeyLess(v, w) && !KeyLess(w, v)
    ensures var a, b := NewVertex(0.0, 0.0, 1.0, "a"), NewVertex(0.0, 0.0, 1.0, "b");
            LessAsWritten(a, b) && LessAsWritten(b, a) && !KeyLess(a, b) && !KeyLess(b, a)
  {
  }
}

=== FILE: wrappers.dfy ===
/** Option and Result, for values that may be unset and operations that may fail. */
module Wrappers {

  datatype Option<+T> = None | Some(value: T)

  datatype Result<+T, +E> = Ok(value: T) | Err(error: E)
}
